=== FILE: README.md ===
# WhatsApp chat analyzer: parse-and-aggregate core in Dafny

This project models the core of `chatanalyzer/main.py`. That is the line loop of
`process_chat_data` and the ratio step of `calculate_metrics`.

- **Header recognizer** (`LineMatcher`). Python's `re.match` of the header pattern, as hand-written
  prefix parsers. Each greedy quantifier is resolved the way the regex engine's backtracking
  resolves it. Two places can back off, and both are modelled:
  - A whitespace run after the dash that is directly followed by `:`. When the run has two or more
    characters, the speaker group takes the last of them. When it has only one, there is no match,
    because the speaker group would be empty.
  - A whitespace run after the speaker's colon that reaches the end of the line. The body group
    then takes the last character of the run that is not a newline.
- **Speaker normaliser and filter** (`Speakers`). `user.strip().title()`, then the system-label
  test on `user.lower()`.
- **Emoji extractor** (`Emoji`). `findall` with the fixed range class, then `normalize_emojis`.
- **Counter fold** (`Aggregator`). The `messages`, `words`, `emojis` and `dates` counters with
  `defaultdict`/`Counter` semantics (`Tally`). A missing key reads as zero and an update creates
  the key.
  - The input file is a `seq<string>` of lines. Each line keeps its trailing newline, as Python's
    file iteration does.
  - The date parser is a parameter `parse: string -> Option<D>`. `None` stands for the exception
    that makes the loop skip the line.
- **Reference account** (`Reference`). The accepted events of the input, and per-speaker counts
  computed from that list alone. The fold is proved equal to them for every input.
- **Invariants** (`Invariants`). Aggregate keys are sums, emoji counts are bounded, and keys are
  speaker labels.
- **Metrics** (`Metrics`). `safe_divide` and `words_per_message`, over exact reals.

The source's collisions are kept:
- A speaker whose normalised label is `Total` also bumps the message total a second time.
- A speaker labelled `Both` doubles the `Both` emoji table.
- The range U+24C2–U+1F251 contains U+FE0F and CJK ideographs. U+FE0F is then dropped as a
  modifier, but CJK text is counted as emoji.

The sum invariants are therefore proved under the hypothesis that no accepted speaker has the
colliding label.

For the body `Hello there 😀😀 friend`, `message.split()` yields four tokens (`😀😀` is one of
them); the model counts words exactly as `split()` does, as maximal runs of non-whitespace
characters.

## Model

| member | source | states |
|---|---|---|
| LineMatcher.Match | chatanalyzer/main.py:89-91 | a match yields a valid header: 1–2 digit day and month, 2–4 digit year, `/-.` separators, time `H:MM[:SS][ AM]`, whitespace-dash-whitespace delimiter, non-empty speaker without `:`, whitespace after the colon, non-empty body without newline; the line is exactly that header followed by nothing or a newline |
| LineMatcher.MatchLine | chatanalyzer/main.py:90 | round trip: the text of any valid header whose speaker and body start with a non-space, followed by nothing or a newline, is matched with exactly those groups |
| LineMatcher.MatchComplete | chatanalyzer/main.py:90 | no false negatives: any line that is some valid header followed by nothing or a newline matches |
| LineMatcher.MatchIff | chatanalyzer/main.py:89-91 | a line matches if and only if it is a valid header followed by nothing or a newline |
| LineMatcher.ParseDate | chatanalyzer/main.py:90 | the date group read off a line is a 1–2 digit day, a `/-.` separator, a 1–2 digit month, a separator and a 2–4 digit year, and the line is that text followed by the rest |
| LineMatcher.ParseDateThen | chatanalyzer/main.py:90 | a valid date followed by a non-digit is read back exactly, with the same rest |
| LineMatcher.ParseClock | chatanalyzer/main.py:90 | the time read off a line is `H:MM` with optional `:SS` and optional space-letter-`M`, and the line is that text followed by the rest |
| LineMatcher.ParseClockThen | chatanalyzer/main.py:90 | a valid time followed by whitespace and then a character other than `A`, `P`, `a` or `p` (as the delimiter supplies) is read back exactly, with the same rest |
| LineMatcher.ParseStamp | chatanalyzer/main.py:90 | the date-time group is a valid date, an optional comma, whitespace and a valid time, and the line is that text followed by the rest |
| LineMatcher.ParseMessage | chatanalyzer/main.py:90 | what follows the delimiter splits into a non-empty speaker without `:`, the colon, non-empty whitespace, a non-empty body without newline, and nothing or a newline |
| LineMatcher.ParseStampThen | chatanalyzer/main.py:90 | the date-time group is read back exactly from its own text when followed by the delimiter |
| LineMatcher.ParseLeadThen | chatanalyzer/main.py:90 | a whitespace-dash-whitespace delimiter followed by a non-space, non-colon character is consumed exactly |
| LineMatcher.ParseLead | chatanalyzer/main.py:90 | what `\s+-\s+` consumes is whitespace around exactly one dash, and the line splits into it and the rest; the rest starts after the whole whitespace run, or at its last character when a colon follows the run; a rest starting with the colon only arises from a single whitespace character after the dash |
| LineMatcher.ParseMessageThen | chatanalyzer/main.py:90 | speaker, colon, whitespace and a body starting with a non-space are split back into the same groups |
| LineMatcher.BodyStart | chatanalyzer/main.py:90 | backtracking of `:\s+(.+)`: the body starts after the whitespace run, or, when the run ends the line, at its last non-newline character; there is no match exactly when the run is all newlines after its first character and ends the line |
| Speakers.Classify | chatanalyzer/main.py:129-133 | a speaker is dropped exactly when its stripped, lower-cased label is `system` or `whatsapp` or contains `changed`; a kept speaker yields exactly its stripped, title-cased label, which is a key and not excluded |
| Speakers.NormaliseIsKey | chatanalyzer/main.py:129 | every normalised label is a key: no surrounding whitespace and title-cased |
| Speakers.NormaliseFixesKeys | chatanalyzer/main.py:129 | a label is a key exactly when normalising it leaves it unchanged |
| Speakers.NormaliseIdempotent | chatanalyzer/main.py:129 | stripping and title-casing twice is the same as once |
| Text.LowerTitleFrom | chatanalyzer/main.py:129-132 | lower-casing a title-cased label gives the lower-cased original, so the system test sees the raw label's letters |
| Text.StripLeft | chatanalyzer/main.py:129 | `lstrip` removes a whitespace prefix and stops at the first non-whitespace character |
| Text.StripRight | chatanalyzer/main.py:129 | `rstrip` removes a whitespace suffix and stops at the last non-whitespace character |
| Text.Contains | chatanalyzer/main.py:132 | `'changed' in s` holds exactly when the substring occurs at some position |
| Text.FlattenRuns | chatanalyzer/main.py:104-112 | flattening the maximal runs of a class gives the characters of the class, in order |
| Text.RunsCount | chatanalyzer/main.py:140 | the number of whitespace-separated words equals the number of places where a word starts |
| Emoji.Cleaned | chatanalyzer/main.py:144-145 | the cleaned list is no longer than the body, and each element is in the class and is not a modifier |
| Emoji.Normalise | chatanalyzer/main.py:107-112 | the normalised list contains no modifier |
| Emoji.CleanedIsFilter | chatanalyzer/main.py:93-112 | findall then normalise equals the body's characters, in order, that are in the class and are not modifiers |
| Emoji.NormaliseIdempotent | chatanalyzer/main.py:107-112 | normalising the cleaned list again returns it unchanged |
| Emoji.CountCleaned | chatanalyzer/main.py:144-146 | each base emoji occurs in the cleaned list as often as in the body; nothing else occurs |
| Emoji.ClassQuirks | chatanalyzer/main.py:101-110 | U+FE0F is in the class but dropped; CJK U+4E2D is counted; U+200D is not in the class; skin tones are dropped |
| Tally.Inc | chatanalyzer/main.py:138 | `m[k] += n` on a defaultdict adds `n` at `k` only and creates `k` |
| Tally.AddAll | chatanalyzer/main.py:148 | `Counter.update` with a list adds each element's number of occurrences |
| Tally.Distinct | chatanalyzer/main.py:147 | `set(cleaned_emojis)` holds each element of the list exactly once and nothing else |
| Tally.AddEach | chatanalyzer/main.py:147-149 | `Counter.update(set(xs))` adds exactly 1 for each element occurring in `xs`, however often it occurs, and 0 for every other key; the keys grow by the elements of `xs` |
| Aggregator.Recognise | chatanalyzer/main.py:123-135 | characterises each outcome: no header exactly when the pattern fails; system message exactly when the label is excluded; bad date exactly when the speaker is kept and the parser rejects the date text; an accepted event carries the stripped, title-cased speaker group, the parsed date text and the body group, and its speaker is a non-system key with a non-empty single-line body |
| Aggregator.Step | chatanalyzer/main.py:123-154 | a line without header, with an excluded speaker or with a rejected date leaves every counter unchanged; an accepted line applies exactly one event |
| Aggregator.CountMessage | chatanalyzer/main.py:138-139 | adds 1 to the speaker and 1 to `Total` (2 when the speaker is `Total`); no other key changes |
| Aggregator.Record | chatanalyzer/main.py:146-149 | one body adds each emoji's occurrence count to `total`, and 1 to `messages` exactly when the emoji occurs |
| Aggregator.RecordFor | chatanalyzer/main.py:148-149 | records one body into one key's table and leaves every other table unchanged |
| Aggregator.CountEmojis | chatanalyzer/main.py:148-151 | the speaker's and `Both`'s tables grow by the body's counts (`Both` twice when the speaker is `Both`); no other table changes |
| Aggregator.Apply | chatanalyzer/main.py:138-151 | one event: the message update above, the body's word count added to the speaker only, exactly one `(user, date)` appended, and the emoji update above |
| Aggregator.ProcessChat | chatanalyzer/main.py:121-156 | the line loop, from empty counters, computes the fold of `Step` over the lines in order |
| Reference.RunIsReplay | chatanalyzer/main.py:121-154 | the fold over the lines equals applying, in order, only the events of the accepted lines: a skipped line leaves no trace |
| Reference.RunMessages | chatanalyzer/main.py:138-139 | after any input, `messages[u]` is the number of accepted events by `u`; `Total` is the number of events plus those by a speaker named `Total` |
| Reference.RunWords | chatanalyzer/main.py:140 | `words[u]` is the word count of the bodies of `u`'s events |
| Reference.RunDates | chatanalyzer/main.py:141 | `dates` is the (speaker, date) pair of every accepted event, in input order |
| Reference.RunEmojis | chatanalyzer/main.py:148-149 | a speaker's `total[e]` and `messages[e]` are the occurrences of `e` in, and the number of, that speaker's bodies containing it |
| Reference.RunBoth | chatanalyzer/main.py:150-151 | `Both` counts over all events, plus once more for a speaker named `Both` |
| Invariants.TotalIsSum | chatanalyzer/main.py:138-141 | with no speaker named `Total`, after every prefix `messages['Total']` equals `len(dates)` and the sum of the other message counts |
| Invariants.BothIsSum | chatanalyzer/main.py:148-151 | with no speaker named `Both`, `emojis['Both']` is the pointwise sum of the per-speaker tables |
| Invariants.MentionsBounded | chatanalyzer/main.py:146-151 | for every key and emoji, `messages[e] <= total[e]` |
| Invariants.MentionsWithinMessages | chatanalyzer/main.py:138-151 | a speaker's `messages[e]` is at most that speaker's message count; `Both`'s is at most `Total` when no speaker is named `Both` |
| Invariants.KeysAreSpeakers | chatanalyzer/main.py:129-151 | every key the fold writes, and every speaker in `dates`, is a stripped, title-cased, non-system label, apart from the keys `Total` and `Both` |
| Metrics.SafeDivide | chatanalyzer/main.py:160-161 | zero when the denominator is zero, otherwise the exact quotient (result times denominator is the numerator) |
| Metrics.TotalWords | chatanalyzer/main.py:165 | the loop adds up every value of the word counter |
| Metrics.SpeakerRates | chatanalyzer/main.py:163-170 | one rate for each key of the message counter other than `Total`, equal to its words over its messages |
| Metrics.WordsPerMessage | chatanalyzer/main.py:163-174 | keys are the message counter's keys plus `Total`; each speaker's rate is words over messages; `Total` is all words over `messages['Total']`; zero where a denominator is zero |
| Metrics.RunWordsSum | chatanalyzer/main.py:140-165 | after any input, the sum of the word counter is the number of words in all accepted bodies |
| Metrics.RunWordsPerMessage | chatanalyzer/main.py:158-176 | after a run with no speaker named `Total`, each speaker's rate is their words over their messages, and `Total`'s is all words over the number of accepted messages |

## Left out

- `print_metrics`, `print_emoji_metrics`, `plot_message_timeline` and `main` are left out. They cover console formatting, `most_common` display ranking, plotting, PNG output, argument handling and the debug printout.
- Opening the file and decoding UTF-8 are left out. The input is the sequence of decoded lines.
- `dateutil.parser.parse(..., dayfirst=True)` is not modelled. It is a foreign library, represented by the `parse` parameter. Any other exception inside the `try` block is not modelled: nothing else in the block can raise on these inputs.
- Python's `\d` also matches non-ASCII decimal digits. The model accepts ASCII digits only.
- `str.title` and `str.lower` are ASCII-only in the model. Other characters are left unchanged, whereas Python also maps other cased scripts. Python also treats a non-ASCII letter as cased when it decides where a word starts; the model does not. So an ASCII letter that follows a non-ASCII letter is upper-cased by the model but not by Python: `élodie` becomes `éLodie` in the model, while Python gives `Élodie`.
- Whitespace (`\s`, `strip`, `split`) is the fixed set of code points for which `str.isspace` holds.
- Ratios are exact reals. Floating-point rounding is not modelled.
- `Metrics.WordsPerMessage` reads `messages['Total']` without a side effect. In the source, that read inserts `'Total': 0` into the defaultdict when no message was counted. The ratios are the same either way; only the printing code, which is not modelled, would see the extra key.
- `Invariants.TotalIsSum`: assumes no speaker is named `Total`. The source gives no guarantee for that case; `Reference.RunMessages` states the doubled count instead.
- `Invariants.BothIsSum`: assumes no speaker is named `Both`. `Reference.RunBoth` states the doubled count instead.

=== FILE: aggregator.dfy ===
/**
 * The counter fold of `process_chat_data`: each line is matched, its speaker
 * classified and its date text parsed; an accepted event then updates the
 * message, word and emoji counters and appends to the date series, and any
 * other line leaves the counters as they were.
 *
 * The date parser (`dateutil.parser.parse(..., dayfirst=True)`) is a
 * parameter: a partial function from the date text to a date of type `D`.
 */
module Aggregator {
  import opened Wrappers
  import opened Text
  import opened Tally
  import LineMatcher
  import Speakers
  import Emoji

  /** The aggregate key of the message counter. */
  const TotalKey: string := "Total"

  /** The aggregate key of the emoji statistics. */
  const BothKey: string := "Both"

  /** Per-speaker emoji statistics: occurrences, and messages containing each emoji. */
  datatype Table = Table(total: map<char, nat>, messages: map<char, nat>)

  const EmptyTable := Table(map[], map[])

  datatype Counters<D> = Counters(
    messages: map<string, nat>,
    words: map<string, nat>,
    emojis: map<string, Table>,
    dates: seq<(string, D)>)

  function Empty<D>(): Counters<D> {
    Counters(map[], map[], map[], [])
  }

  /** An accepted line: speaker key, parsed date and message body. */
  datatype Event<D> = Event(user: string, date: D, body: string)

  /** What became of one line. */
  datatype Outcome<D> = Accepted(event: Event<D>) | NoHeader | SystemMessage | BadDate

  /** `emojis[u]` of the source's defaultdict: a missing speaker has an empty table. */
  function TableOf(emojis: map<string, Table>, u: string): Table {
    if u in emojis then emojis[u] else EmptyTable
  }

  function EmojiTotal(emojis: map<string, Table>, u: string, e: char): nat {
    Get(TableOf(emojis, u).total, e)
  }

  function EmojiMessages(emojis: map<string, Table>, u: string, e: char): nat {
    Get(TableOf(emojis, u).messages, e)
  }

  /** How often one body adds `e` to a `total` table. */
  function Occurrences(body: string, e: char): nat {
    if Emoji.IsBaseEmoji(e) then Count(body, e) else 0
  }

  /** What one body adds for `e` to a `messages` table. */
  function Mentions(body: string, e: char): nat {
    if Emoji.IsBaseEmoji(e) && e in body then 1 else 0
  }

  /** Number of whitespace-separated words: `len(message.split())`. */
  function WordCount(body: string): nat {
    |Words(body)|
  }

  /**
   * Match, classify, parse: the steps before any counter is touched, in the
   * source's order. The date is parsed only for a non-system speaker.
   */
  function Recognise<D>(parse: string -> Option<D>, line: string): (r: Outcome<D>)
    ensures r.NoHeader? <==> LineMatcher.Match(line).None?
    ensures r.SystemMessage? <==>
      LineMatcher.Match(line).Some? && Speakers.IsSystemLabel(Lower(Strip(LineMatcher.Match(line).value.speaker)))
    ensures r.BadDate? <==>
      LineMatcher.Match(line).Some? && Speakers.Classify(LineMatcher.Match(line).value.speaker).Some?
      && parse(LineMatcher.Match(line).value.DateText()).None?
    ensures r.Accepted? ==>
      var h := LineMatcher.Match(line).value;
      && r.event.user == Speakers.Normalise(h.speaker)
      && Some(r.event.date) == parse(h.DateText())
      && r.event.body == h.body
      && Speakers.IsKey(r.event.user) && !Speakers.Excluded(r.event.user)
      && r.event.body != [] && '\n' !in r.event.body
  {
    match LineMatcher.Match(line)
    case None => NoHeader
    case Some(h) =>
      match Speakers.Classify(h.speaker)
      case None => SystemMessage
      case Some(user) =>
        match parse(h.DateText())
        case None => BadDate
        case Some(date) => Accepted(Event(user, date, h.body))
  }

  /** Counts one message body into a speaker's emoji table. */
  function Record(t: Table, body: string): (r: Table)
    ensures forall e :: Get(r.total, e) == Get(t.total, e) + Occurrences(body, e)
    ensures forall e :: Get(r.messages, e) == Get(t.messages, e) + Mentions(body, e)
  {
    var cleaned := Emoji.Cleaned(body);
    assert forall e :: Count(cleaned, e) == Occurrences(body, e) by {
      forall e {
        Emoji.CountCleaned(body, e);
      }
    }
    Table(AddAll(t.total, cleaned), AddEach(t.messages, cleaned))
  }

  /** `messages[user] += 1; messages['Total'] += 1`. */
  function CountMessage(m: map<string, nat>, u: string): (r: map<string, nat>)
    ensures r.Keys == m.Keys + {u, TotalKey}
    ensures u != TotalKey ==> Get(r, u) == Get(m, u) + 1
    ensures Get(r, TotalKey) == Get(m, TotalKey) + (if u == TotalKey then 2 else 1)
    ensures forall k :: k != u && k != TotalKey ==> Get(r, k) == Get(m, k)
  {
    Inc(Inc(m, u, 1), TotalKey, 1)
  }

  /** `emojis[u]['total'].update(...)` and `emojis[u]['messages'].update(...)` for one key. */
  function RecordFor(emojis: map<string, Table>, u: string, body: string): (r: map<string, Table>)
    ensures r.Keys == emojis.Keys + {u}
    ensures forall k :: k != u ==> TableOf(r, k) == TableOf(emojis, k)
    ensures forall e :: EmojiTotal(r, u, e) == EmojiTotal(emojis, u, e) + Occurrences(body, e)
    ensures forall e :: EmojiMessages(r, u, e) == EmojiMessages(emojis, u, e) + Mentions(body, e)
  {
    emojis[u := Record(TableOf(emojis, u), body)]
  }

  /** The four emoji-table updates: the speaker's table, then the "Both" table. */
  function CountEmojis(emojis: map<string, Table>, u: string, body: string): (r: map<string, Table>)
    ensures r.Keys == emojis.Keys + {u, BothKey}
    ensures forall k :: k != u && k != BothKey ==> TableOf(r, k) == TableOf(emojis, k)
    ensures forall e :: u != BothKey ==>
      && EmojiTotal(r, u, e) == EmojiTotal(emojis, u, e) + Occurrences(body, e)
      && EmojiMessages(r, u, e) == EmojiMessages(emojis, u, e) + Mentions(body, e)
    ensures forall e ::
      var times := if u == BothKey then 2 else 1;
      && EmojiTotal(r, BothKey, e) == EmojiTotal(emojis, BothKey, e) + times * Occurrences(body, e)
      && EmojiMessages(r, BothKey, e) == EmojiMessages(emojis, BothKey, e) + times * Mentions(body, e)
  {
    RecordFor(RecordFor(emojis, u, body), BothKey, body)
  }

  /** The counter updates of one accepted event, in the source's order. */
  function Apply<D>(c: Counters<D>, ev: Event<D>): (r: Counters<D>)
    ensures r.messages == CountMessage(c.messages, ev.user)
    ensures r.words.Keys == c.words.Keys + {ev.user}
    ensures Get(r.words, ev.user) == Get(c.words, ev.user) + WordCount(ev.body)
    ensures forall k :: k != ev.user ==> Get(r.words, k) == Get(c.words, k)
    ensures r.dates == c.dates + [(ev.user, ev.date)]
    ensures r.emojis == CountEmojis(c.emojis, ev.user, ev.body)
  {
    Counters(
      CountMessage(c.messages, ev.user),
      Inc(c.words, ev.user, WordCount(ev.body)),
      CountEmojis(c.emojis, ev.user, ev.body),
      c.dates + [(ev.user, ev.date)])
  }

  /** One line of the loop: a skipped line leaves every counter unchanged. */
  function Step<D>(parse: string -> Option<D>, c: Counters<D>, line: string): (r: Counters<D>)
    ensures !Recognise(parse, line).Accepted? ==> r == c
    ensures Recognise(parse, line).Accepted? ==> r == Apply(c, Recognise(parse, line).event)
  {
    match Recognise(parse, line)
    case Accepted(ev) => Apply(c, ev)
    case _ => c
  }

  /** The counters after the lines, processed in order from empty counters. */
  function Run<D>(parse: string -> Option<D>, lines: seq<string>): Counters<D>
    decreases |lines|
  {
    if lines == [] then Empty()
    else Step(parse, Run(parse, lines[..|lines| - 1]), lines[|lines| - 1])
  }

  /** The loop of `process_chat_data` over the lines of the file, in order. */
  method ProcessChat<D>(parse: string -> Option<D>, lines: seq<string>) returns (c: Counters<D>)
    ensures c == Run(parse, lines)
  {
    c := Empty();
    for i := 0 to |lines|
      invariant c == Run(parse, lines[..i])
    {
      assert lines[..i + 1][..i] == lines[..i];
      c := Step(parse, c, lines[i]);
    }
    assert lines[..|lines|] == lines;
  }
}

=== FILE: emoji.dfy ===
/**
 * The emoji extractor of `process_chat_data`: `emoji_pattern.findall` over a
 * fixed union of code-point ranges, then `normalize_emojis`, which flattens
 * the runs into single code points and drops nine modifier code points.
 */
module Emoji {
  import opened Text

  /** The character class of `emoji_pattern`, range by range. */
  predicate InClass(c: char) {
    var n := c as int;
    || 0x1F600 <= n <= 0x1F64F  // emoticons
    || 0x1F300 <= n <= 0x1F5FF  // symbols and pictographs
    || 0x1F680 <= n <= 0x1F6FF  // transport and map
    || 0x1F1E0 <= n <= 0x1F1FF  // flags
    || 0x2500 <= n <= 0x2BEF    // miscellaneous symbols
    || 0x2702 <= n <= 0x27B0    // dingbats
    || 0x24C2 <= n <= 0x1F251   // "enclosed characters": also covers CJK text and U+FE0F
    || 0x1F900 <= n <= 0x1F9FF  // supplemental symbols
    || 0x1FA70 <= n <= 0x1FAFF  // chess symbols
  }

  /** Skin tones, the female and male signs, the zero-width joiner and variation selector 16. */
  predicate IsModifier(c: char) {
    var n := c as int;
    || 0x1F3FB <= n <= 0x1F3FF
    || n == 0x2640 || n == 0x2642 || n == 0x200D || n == 0xFE0F
  }

  function NotModifier(c: char): bool {
    !IsModifier(c)
  }

  /** A code point that survives extraction and normalisation. */
  function IsBaseEmoji(c: char): bool {
    InClass(c) && !IsModifier(c)
  }

  /** `emoji_pattern.findall(message)`: the maximal runs of class characters. */
  function FindAll(body: string): seq<string> {
    Runs(body, InClass)
  }

  /** `normalize_emojis`: every code point of every run, modifiers left out. */
  function Normalise(runs: seq<string>): (r: string)
    ensures forall i :: 0 <= i < |r| ==> !IsModifier(r[i])
  {
    Filter(Flatten(runs), NotModifier)
  }

  /** The cleaned emoji list of one message body. */
  function Cleaned(body: string): (r: string)
    ensures |r| <= |body|
    ensures forall i :: 0 <= i < |r| ==> IsBaseEmoji(r[i])
  {
    CleanedIsFilter(body);
    Normalise(FindAll(body))
  }

  lemma {:induction false} FilterFilter(s: string, p: char -> bool, q: char -> bool, both: char -> bool)
    requires forall c :: both(c) == (p(c) && q(c))
    ensures Filter(Filter(s, p), q) == Filter(s, both)
    decreases |s|
  {
    if s != [] {
      FilterFilter(s[1..], p, q, both);
      FilterAppend(if p(s[0]) then [s[0]] else [], Filter(s[1..], p), q);
    }
  }

  /**
   * Extracting runs and normalising them is the same as keeping, in order,
   * the body's code points that are in the class and are not modifiers.
   */
  lemma CleanedIsFilter(body: string)
    ensures Normalise(FindAll(body)) == Filter(body, IsBaseEmoji)
  {
    FlattenRuns(body, InClass);
    FilterFilter(body, InClass, NotModifier, IsBaseEmoji);
  }

  /** Each code point as its own one-character string, as the cleaned list is in Python. */
  function Singletons(s: string): (r: seq<string>)
    ensures |r| == |s|
  {
    seq(|s|, i requires 0 <= i < |s| => [s[i]])
  }

  lemma {:induction false} FlattenSingletons(s: string)
    ensures Flatten(Singletons(s)) == s
    decreases |s|
  {
    if s != [] {
      assert Singletons(s)[1..] == Singletons(s[1..]);
      FlattenSingletons(s[1..]);
    }
  }

  /** Normalising an already cleaned list returns it unchanged. */
  lemma NormaliseIdempotent(body: string)
    ensures Normalise(Singletons(Cleaned(body))) == Cleaned(body)
  {
    var c := Cleaned(body);
    FlattenSingletons(c);
    FilterKeepsAll(c, NotModifier);
  }

  lemma {:induction false} CountFilter(s: string, p: char -> bool, e: char)
    ensures Count(Filter(s, p), e) == (if p(e) then Count(s, e) else 0)
    decreases |s|
  {
    if s != [] {
      CountFilter(s[1..], p, e);
      CountAppend(if p(s[0]) then [s[0]] else [], Filter(s[1..], p), e);
    }
  }

  lemma {:induction false} CountAppend(a: string, b: string, e: char)
    ensures Count(a + b, e) == Count(a, e) + Count(b, e)
    decreases |a|
  {
    if a == [] {
      assert a + b == b;
    } else {
      assert (a + b)[1..] == a[1..] + b;
      CountAppend(a[1..], b, e);
    }
  }

  /**
   * A base emoji occurs in the cleaned list exactly as often as in the body;
   * anything else does not occur in it at all.
   */
  lemma CountCleaned(body: string, e: char)
    ensures Count(Cleaned(body), e) == (if IsBaseEmoji(e) then Count(body, e) else 0)
  {
    CleanedIsFilter(body);
    CountFilter(body, IsBaseEmoji, e);
  }

  /**
   * The class is wider than emoji: it takes in variation selector 16 (which
   * normalisation then drops) and CJK ideographs (which it keeps); the
   * zero-width joiner is outside the class altogether.
   */
  lemma ClassQuirks()
    ensures InClass('\U{FE0F}') && !IsBaseEmoji('\U{FE0F}')
    ensures IsBaseEmoji('\U{4E2D}')
    ensures !InClass('\U{200D}')
    ensures IsBaseEmoji('\U{1F600}') && !IsBaseEmoji('\U{1F3FD}')
  {
  }
}

=== FILE: invariants.dfy ===
/**
 * Invariants of the counters after every prefix of the input: the aggregate
 * keys are sums of the per-speaker ones, the emoji counts are bounded, and
 * every key is a normalised, non-system speaker label.
 *
 * The sums hold only while no speaker's key is itself "Total" (for the
 * message counter) or "Both" (for the emoji statistics); the source does not
 * keep those labels apart from the aggregate keys.
 */
module Invariants {
  import opened Wrappers
  import opened Text
  import opened Tally
  import opened Sums
  import opened Aggregator
  import opened Reference
  import Speakers

  /** No event of the list has speaker key `key`. */
  ghost predicate NoneBy<D>(evs: seq<Event<D>>, key: string) {
    forall i :: 0 <= i < |evs| ==> evs[i].user != key
  }

  /** No accepted line of the input has speaker key `key`. */
  ghost predicate NoEventBy<D>(parse: string -> Option<D>, lines: seq<string>, key: string) {
    NoneBy(Events(parse, lines), key)
  }

  lemma {:induction false} NoneByCount<D>(evs: seq<Event<D>>, key: string)
    requires NoneBy(evs, key)
    ensures MessagesBy(evs, key) == 0
    ensures forall e :: OccurrencesBy(evs, key, e) == 0 && MentionsBy(evs, key, e) == 0
    decreases |evs|
  {
    if evs != [] {
      assert Last(evs) == evs[|evs| - 1];
      NoneByCount(Init(evs), key);
    }
  }

  ghost function MessageSum(m: map<string, nat>): nat {
    SumSet(m.Keys - {TotalKey}, k => Get(m, k))
  }

  /** Counting one message of a speaker other than "Total" keeps "Total" equal to the sum of the rest. */
  lemma CountMessageSum(m: map<string, nat>, u: string)
    requires u != TotalKey
    ensures MessageSum(CountMessage(m, u)) == MessageSum(m) + 1
  {
    var r := CountMessage(m, u);
    var f := k => Get(m, k);
    var g := k => Get(r, k);
    var s := m.Keys - {TotalKey};
    assert r.Keys - {TotalKey} == s + {u};
    if u in s {
      assert s + {u} == s;
      SumSetBump(s, f, g, u, 1);
    } else {
      SumSetInsert(s, g, u);
      SumSetExt(s, f, g);
    }
  }

  lemma {:induction false} ReplayTotalIsSum<D>(evs: seq<Event<D>>)
    requires NoneBy(evs, TotalKey)
    ensures Get(Replay(evs).messages, TotalKey) == |Replay(evs).dates|
    ensures Get(Replay(evs).messages, TotalKey) == MessageSum(Replay(evs).messages)
    decreases |evs|
  {
    if evs == [] {
      SumSetZero({}, k => Get(map[], k));
    } else {
      assert Last(evs) == evs[|evs| - 1];
      ReplayTotalIsSum(Init(evs));
      CountMessageSum(Replay(Init(evs)).messages, Last(evs).user);
    }
  }

  /**
   * After every prefix, `messages['Total']` equals the number of dates and the
   * sum of all other message counts, provided no speaker's key is "Total".
   */
  lemma {:induction false} TotalIsSum<D>(parse: string -> Option<D>, lines: seq<string>)
    requires NoEventBy(parse, lines, TotalKey)
    ensures Get(Run(parse, lines).messages, TotalKey) == |Run(parse, lines).dates|
    ensures Get(Run(parse, lines).messages, TotalKey) == MessageSum(Run(parse, lines).messages)
  {
    RunIsReplay(parse, lines);
    ReplayTotalIsSum(Events(parse, lines));
  }

  ghost function TotalSum(emojis: map<string, Table>, e: char): nat {
    SumSet(emojis.Keys - {BothKey}, u => EmojiTotal(emojis, u, e))
  }

  ghost function MessagesSum(emojis: map<string, Table>, e: char): nat {
    SumSet(emojis.Keys - {BothKey}, u => EmojiMessages(emojis, u, e))
  }

  /** Recording one body for a speaker other than "Both" raises the per-speaker sums by that body's counts. */
  lemma CountEmojisSum(emojis: map<string, Table>, u: string, body: string, e: char)
    requires u != BothKey
    ensures TotalSum(CountEmojis(emojis, u, body), e) == TotalSum(emojis, e) + Occurrences(body, e)
    ensures MessagesSum(CountEmojis(emojis, u, body), e) == MessagesSum(emojis, e) + Mentions(body, e)
  {
    var r := CountEmojis(emojis, u, body);
    var s := emojis.Keys - {BothKey};
    assert r.Keys - {BothKey} == s + {u};
    var f := k => EmojiTotal(emojis, k, e);
    var g := k => EmojiTotal(r, k, e);
    var f' := k => EmojiMessages(emojis, k, e);
    var g' := k => EmojiMessages(r, k, e);
    if u in s {
      assert s + {u} == s;
      SumSetBump(s, f, g, u, Occurrences(body, e));
      SumSetBump(s, f', g', u, Mentions(body, e));
    } else {
      assert EmojiTotal(emojis, u, e) == 0 && EmojiMessages(emojis, u, e) == 0;
      SumSetInsert(s, g, u);
      SumSetExt(s, f, g);
      SumSetInsert(s, g', u);
      SumSetExt(s, f', g');
    }
  }

  lemma {:induction false} ReplayBothIsSum<D>(evs: seq<Event<D>>, e: char)
    requires NoneBy(evs, BothKey)
    ensures EmojiTotal(Replay(evs).emojis, BothKey, e) == TotalSum(Replay(evs).emojis, e)
    ensures EmojiMessages(Replay(evs).emojis, BothKey, e) == MessagesSum(Replay(evs).emojis, e)
    decreases |evs|
  {
    if evs == [] {
      SumSetZero({}, u => EmojiTotal(map[], u, e));
      SumSetZero({}, u => EmojiMessages(map[], u, e));
    } else {
      assert Last(evs) == evs[|evs| - 1];
      ReplayBothIsSum(Init(evs), e);
      CountEmojisSum(Replay(Init(evs)).emojis, Last(evs).user, Last(evs).body, e);
    }
  }

  /**
   * After every prefix, the "Both" table is the pointwise sum of the
   * per-speaker tables, provided no speaker's key is "Both".
   */
  lemma {:induction false} BothIsSum<D>(parse: string -> Option<D>, lines: seq<string>)
    requires NoEventBy(parse, lines, BothKey)
    ensures forall e :: EmojiTotal(Run(parse, lines).emojis, BothKey, e) == TotalSum(Run(parse, lines).emojis, e)
    ensures forall e :: EmojiMessages(Run(parse, lines).emojis, BothKey, e) == MessagesSum(Run(parse, lines).emojis, e)
  {
    RunIsReplay(parse, lines);
    var evs := Events(parse, lines);
    forall e
      ensures EmojiTotal(Replay(evs).emojis, BothKey, e) == TotalSum(Replay(evs).emojis, e)
      ensures EmojiMessages(Replay(evs).emojis, BothKey, e) == MessagesSum(Replay(evs).emojis, e)
    {
      ReplayBothIsSum(evs, e);
    }
  }

  lemma MentionsAtMostOccurrences(body: string, e: char)
    ensures Mentions(body, e) <= Occurrences(body, e)
  {
  }

  lemma {:induction false} ReferenceBounds<D>(evs: seq<Event<D>>, u: string, e: char)
    ensures MentionsBy(evs, u, e) <= OccurrencesBy(evs, u, e)
    ensures MentionsBy(evs, u, e) <= MessagesBy(evs, u)
    ensures MentionsAll(evs, e) <= OccurrencesAll(evs, e)
    ensures MentionsAll(evs, e) <= |evs|
    decreases |evs|
  {
    if evs != [] {
      ReferenceBounds(Init(evs), u, e);
      MentionsAtMostOccurrences(Last(evs).body, e);
    }
  }

  /** A message count per emoji never exceeds the occurrence count. */
  lemma {:induction false} MentionsBounded<D>(parse: string -> Option<D>, lines: seq<string>)
    ensures forall u, e :: EmojiMessages(Run(parse, lines).emojis, u, e) <= EmojiTotal(Run(parse, lines).emojis, u, e)
  {
    var evs := Events(parse, lines);
    var em := Run(parse, lines).emojis;
    RunEmojis(parse, lines);
    RunBoth(parse, lines);
    forall u, e
      ensures EmojiMessages(em, u, e) <= EmojiTotal(em, u, e)
    {
      ReferenceBounds(evs, u, e);
      ReferenceBounds(evs, BothKey, e);
    }
  }

  /**
   * The messages of a speaker that contain an emoji are at most that speaker's
   * messages; for "Both" against "Total", provided no speaker's key is "Both".
   */
  lemma {:induction false} MentionsWithinMessages<D>(parse: string -> Option<D>, lines: seq<string>)
    ensures forall u, e :: u != BothKey ==> EmojiMessages(Run(parse, lines).emojis, u, e) <= Get(Run(parse, lines).messages, u)
    ensures NoEventBy(parse, lines, BothKey) ==>
      forall e :: EmojiMessages(Run(parse, lines).emojis, BothKey, e) <= Get(Run(parse, lines).messages, TotalKey)
  {
    var evs := Events(parse, lines);
    var c := Run(parse, lines);
    RunMessages(parse, lines);
    RunEmojis(parse, lines);
    forall u, e | u != BothKey
      ensures EmojiMessages(c.emojis, u, e) <= Get(c.messages, u)
    {
      ReferenceBounds(evs, u, e);
    }
    if NoEventBy(parse, lines, BothKey) {
      NoneByCount(evs, BothKey);
      RunBoth(parse, lines);
      forall e
        ensures EmojiMessages(c.emojis, BothKey, e) <= Get(c.messages, TotalKey)
      {
        ReferenceBounds(evs, BothKey, e);
      }
    }
  }

  /** A label that a line's speaker can normalise to. */
  ghost predicate IsSpeakerKey(k: string) {
    Speakers.IsKey(k) && !Speakers.Excluded(k)
  }

  /** The keys of a set of counters are speaker keys, apart from the aggregate keys. */
  ghost predicate KeysOk<D>(c: Counters<D>) {
    && (forall k :: k in c.messages ==> k == TotalKey || IsSpeakerKey(k))
    && (forall k :: k in c.words ==> IsSpeakerKey(k))
    && (forall k :: k in c.emojis ==> k == BothKey || IsSpeakerKey(k))
    && (forall i :: 0 <= i < |c.dates| ==> IsSpeakerKey(c.dates[i].0))
  }

  lemma {:induction false} ApplyKeepsKeys<D>(c: Counters<D>, ev: Event<D>)
    requires KeysOk(c)
    requires IsSpeakerKey(ev.user)
    ensures KeysOk(Apply(c, ev))
  {
    KeysAfterInsert(c.messages.Keys, ev.user, TotalKey);
    KeysAfterInsert(c.words.Keys, ev.user, ev.user);
    KeysAfterInsert(c.emojis.Keys, ev.user, BothKey);
    DatesAfterAppend(c.dates, (ev.user, ev.date));
  }

  lemma KeysAfterInsert(before: set<string>, u: string, aggregate: string)
    requires forall k :: k in before ==> k == aggregate || IsSpeakerKey(k)
    requires IsSpeakerKey(u)
    ensures forall k :: k in before + {u, aggregate} ==> k == aggregate || IsSpeakerKey(k)
  {
  }

  lemma DatesAfterAppend<D>(dates: seq<(string, D)>, p: (string, D))
    requires forall i :: 0 <= i < |dates| ==> IsSpeakerKey(dates[i].0)
    requires IsSpeakerKey(p.0)
    ensures forall i :: 0 <= i < |dates + [p]| ==> IsSpeakerKey((dates + [p])[i].0)
  {
  }

  lemma {:induction false} ReplayKeys<D>(evs: seq<Event<D>>)
    requires forall i :: 0 <= i < |evs| ==> IsSpeakerKey(evs[i].user)
    ensures KeysOk(Replay(evs))
    decreases |evs|
  {
    if evs != [] {
      assert Last(evs) == evs[|evs| - 1];
      ReplayKeys(Init(evs));
      ApplyKeepsKeys(Replay(Init(evs)), Last(evs));
    }
  }

  /** Every accepted event's speaker is a normalised, non-system label. */
  lemma {:induction false} EventsBySpeakers<D>(parse: string -> Option<D>, lines: seq<string>)
    ensures forall i :: 0 <= i < |Events(parse, lines)| ==> IsSpeakerKey(Events(parse, lines)[i].user)
    decreases |lines|
  {
    if lines != [] {
      EventsBySpeakers(parse, lines[..|lines| - 1]);
      RunUnfold(parse, lines);
    }
  }

  /**
   * Every key an event writes is a normalised, non-system speaker label;
   * apart from those, only the aggregate keys appear.
   */
  lemma {:induction false} KeysAreSpeakers<D>(parse: string -> Option<D>, lines: seq<string>)
    ensures KeysOk(Run(parse, lines))
  {
    RunIsReplay(parse, lines);
    EventsBySpeakers(parse, lines);
    ReplayKeys(Events(parse, lines));
  }
}

=== FILE: line_matcher.dfy ===
/**
 * The header recognizer of `process_chat_data`: Python's `re.match` of
 *
 *   date  = \d{1,2}[/-.]\d{1,2}[/-.]\d{2,4},?\s+\d{1,2}:\d{2}(?::\d{2})?(?:\s[APap][Mm])?
 *   line  = (date)\s+-\s+([^:]+):\s+(.+)
 *
 * written out as parsers that consume a prefix and return the rest. Each
 * greedy quantifier is resolved the way the regex engine's backtracking
 * resolves it; only two places can back off (see `ParseLead` and
 * `BodyStart`), everywhere else the next token cannot begin with a character
 * the quantifier consumes.
 */
module LineMatcher {
  import opened Wrappers
  import opened Text

  predicate IsSeparator(c: char) {
    c == '/' || c == '-' || c == '.'
  }

  predicate IsMeridiemLetter(c: char) {
    c == 'A' || c == 'P' || c == 'a' || c == 'p'
  }

  predicate IsM(c: char) {
    c == 'M' || c == 'm'
  }

  function NotColon(c: char): bool {
    c != ':'
  }

  function NotNewline(c: char): bool {
    c != '\n'
  }

  ghost predicate AllDigits(s: string) {
    forall i :: 0 <= i < |s| ==> IsDigit(s[i])
  }

  /** `\d{1,2}[/-.]\d{1,2}[/-.]\d{2,4}`: the calendar date as written. */
  datatype DatePart = DatePart(day: string, sep1: char, month: string, sep2: char, year: string)
  {
    ghost predicate Valid() {
      && AllDigits(day) && 1 <= |day| <= 2 && IsSeparator(sep1)
      && AllDigits(month) && 1 <= |month| <= 2 && IsSeparator(sep2)
      && AllDigits(year) && 2 <= |year| <= 4
    }

    /** The date's text followed by `rest`. */
    function Then(rest: string): string {
      day + ([sep1] + (month + ([sep2] + (year + rest))))
    }
  }

  /** The optional ` AM`/` pm` suffix of the time. */
  datatype Meridiem = Meridiem(space: char, letter: char, m: char)

  /** `\d{1,2}:\d{2}(?::\d{2})?(?:\s[APap][Mm])?`: the time of day as written. */
  datatype Clock = Clock(hour: string, minute: string, second: Option<string>, meridiem: Option<Meridiem>)
  {
    ghost predicate Valid() {
      && AllDigits(hour) && 1 <= |hour| <= 2
      && AllDigits(minute) && |minute| == 2
      && (second.Some? ==> AllDigits(second.value) && |second.value| == 2)
      && (meridiem.Some? ==>
            IsSpace(meridiem.value.space) && IsMeridiemLetter(meridiem.value.letter)
            && IsM(meridiem.value.m))
    }

    function SecondText(): string {
      if second.Some? then [':'] + second.value else []
    }

    function MeridiemText(): string {
      if meridiem.Some? then [meridiem.value.space, meridiem.value.letter, meridiem.value.m] else []
    }

    /** The time's text followed by `rest`. */
    function Then(rest: string): string {
      hour + ([':'] + (minute + (SecondText() + (MeridiemText() + rest))))
    }
  }

  /** The date-and-time token, the first group of the pattern: date, optional comma, whitespace, time. */
  datatype Stamp = Stamp(date: DatePart, comma: bool, gap: string, clock: Clock)
  {
    ghost predicate Valid() {
      date.Valid() && gap != [] && AllSpace(gap) && clock.Valid()
    }

    function CommaText(): string {
      if comma then [','] else []
    }

    /** The token's text followed by `rest`. */
    function Then(rest: string): string {
      date.Then(CommaText() + (gap + clock.Then(rest)))
    }

    /** The text handed to the date parser. */
    function Text(): string {
      Then([])
    }
  }

  /** `\s+-\s+`: whitespace, one dash, whitespace. */
  ghost predicate IsDelimiter(t: string) {
    exists k :: 1 <= k < |t| - 1 && t[k] == '-' && forall i :: 0 <= i < |t| && i != k ==> IsSpace(t[i])
  }

  /** A matched header: the three groups, with the delimiter and the gap after the colon. */
  datatype Header = Header(stamp: Stamp, lead: string, speaker: string, gap: string, body: string)
  {
    ghost predicate Valid() {
      && stamp.Valid()
      && IsDelimiter(lead)
      && speaker != [] && ':' !in speaker
      && gap != [] && AllSpace(gap)
      && body != [] && '\n' !in body
    }

    /** Group 1, the date-and-time text. */
    function DateText(): string {
      stamp.Text()
    }

    /** The matched text followed by `tail`, the unmatched rest of the line. */
    function Line(tail: string): string {
      stamp.Then(lead + (speaker + ([':'] + (gap + (body + tail)))))
    }
  }

  /** What may follow the matched text: `.+` stops only at a newline or the end. */
  ghost predicate EndsLine(tail: string) {
    tail == [] || tail[0] == '\n'
  }

  /** The calendar date at the start of `s`, and what follows it. */
  function ParseDate(s: string): (r: Option<(DatePart, string)>)
    ensures r.Some? ==> r.value.0.Valid() && s == r.value.0.Then(r.value.1)
  {
    var (day, r1) := TakeWhile(s, IsDigit);
    if !(1 <= |day| <= 2) || r1 == [] || !IsSeparator(r1[0]) then None
    else
      var (month, r2) := TakeWhile(r1[1..], IsDigit);
      if !(1 <= |month| <= 2) || r2 == [] || !IsSeparator(r2[0]) then None
      else
        var (year, r3) := TakeWhile(r2[1..], IsDigit);
        if !(2 <= |year| <= 4) then None
        else
          var d := DatePart(day, r1[0], month, r2[0], year);
          assert r2 == [r2[0]] + (year + r3);
          assert r1 == [r1[0]] + (month + r2);
          Some((d, r3))
  }

  /** `(?::\d{2})?`: taken whenever a colon and two digits follow. */
  function ParseSecond(s: string): (r: (Option<string>, string))
    ensures r.0.Some? ==> AllDigits(r.0.value) && |r.0.value| == 2 && s == [':'] + r.0.value + r.1
    ensures r.0.None? ==> r.1 == s
  {
    if |s| >= 3 && s[0] == ':' && IsDigit(s[1]) && IsDigit(s[2]) then
      assert s == [':'] + s[1..3] + s[3..];
      (Some(s[1..3]), s[3..])
    else (None, s)
  }

  /** `(?:\s[APap][Mm])?`: taken whenever such three characters follow. */
  function ParseMeridiem(s: string): (r: (Option<Meridiem>, string))
    ensures r.0.Some? ==>
      && IsSpace(r.0.value.space) && IsMeridiemLetter(r.0.value.letter) && IsM(r.0.value.m)
      && s == [r.0.value.space, r.0.value.letter, r.0.value.m] + r.1
    ensures r.0.None? ==> r.1 == s
  {
    if |s| >= 3 && IsSpace(s[0]) && IsMeridiemLetter(s[1]) && IsM(s[2]) then
      assert s == [s[0], s[1], s[2]] + s[3..];
      (Some(Meridiem(s[0], s[1], s[2])), s[3..])
    else (None, s)
  }

  /** The time of day at the start of `s`, and what follows it. */
  function ParseClock(s: string): (r: Option<(Clock, string)>)
    ensures r.Some? ==> r.value.0.Valid() && s == r.value.0.Then(r.value.1)
  {
    var (hour, r1) := TakeWhile(s, IsDigit);
    if !(1 <= |hour| <= 2) || r1 == [] || r1[0] != ':' then None
    else
      var r2 := r1[1..];
      if !(|r2| >= 2 && IsDigit(r2[0]) && IsDigit(r2[1])) then None
      else
        var minute := r2[..2];
        var (second, r4) := ParseSecond(r2[2..]);
        var (meridiem, r5) := ParseMeridiem(r4);
        var c := Clock(hour, minute, second, meridiem);
        assert AllDigits(minute) by {
          assert minute == [r2[0], r2[1]];
        }
        ClockText(c, s, r1, r4, r5);
        Some((c, r5))
  }

  /** Reassembles the text `ParseClock` consumed from its pieces. */
  lemma ClockText(c: Clock, s: string, r1: string, r4: string, r5: string)
    requires s == c.hour + r1
    requires r1 != [] && r1[0] == ':' && |r1| >= 3 && r1[1..3] == c.minute
    requires r1[3..] == c.SecondText() + r4
    requires r4 == c.MeridiemText() + r5
    ensures s == c.Then(r5)
  {
    assert r1 == [':'] + (c.minute + r1[3..]);
  }

  /** The date-and-time token at the start of `s`, and what follows it. */
  function ParseStamp(s: string): (r: Option<(Stamp, string)>)
    ensures r.Some? ==> r.value.0.Valid() && s == r.value.0.Then(r.value.1)
  {
    match ParseDate(s)
    case None => None
    case Some((date, r1)) =>
      var comma := r1 != [] && r1[0] == ',';
      var r2 := if comma then r1[1..] else r1;
      var (gap, r3) := TakeWhile(r2, IsSpace);
      if gap == [] then None
      else
        match ParseClock(r3)
        case None => None
        case Some((clock, r4)) =>
          var st := Stamp(date, comma, gap, clock);
          assert r1 == st.CommaText() + r2;
          Some((st, r4))
  }

  /**
   * `\s+-\s+` followed by the first character of `[^:]+`. The whitespace after
   * the dash is taken greedily; when a colon follows it at once, the regex
   * gives the last whitespace character back to the speaker group.
   */
  function ParseLead(s: string): (r: Option<(string, string)>)
    ensures r.Some? ==> IsDelimiter(r.value.0) && s == r.value.0 + r.value.1
    // The whitespace run after the dash is taken whole, except that its last
    // character is left for the speaker when a colon follows the run ...
    ensures r.Some? ==>
      var rest := r.value.1;
      || rest == [] || !IsSpace(rest[0])
      || (|rest| >= 2 && IsSpace(rest[0]) && rest[1] == ':')
    // ... which it cannot be when the run is a single character.
    ensures r.Some? && r.value.1 != [] && r.value.1[0] == ':' ==>
      |r.value.0| >= 2 && r.value.0[|r.value.0| - 2] == '-'
  {
    var i := SkipSpace(s, 0);
    if i == 0 || i == |s| || s[i] != '-' then None
    else
      var j := SkipSpace(s, i + 1);
      if j == i + 1 then None
      else
        var k := if j < |s| && s[j] == ':' && j - (i + 1) >= 2 then j - 1 else j;
        assert s[..k][i] == '-';
        assert forall t :: 0 <= t < k && t != i ==> IsSpace(s[..k][t]);
        Some((s[..k], s[k..]))
  }

  /** The largest `k` in `1..j` with `g[k]` not a newline. */
  function LastNonNewline(g: string, j: nat): (r: Option<nat>)
    requires j < |g|
    ensures r.Some? ==> 1 <= r.value <= j && g[r.value] != '\n'
    ensures r.Some? ==> forall k :: r.value < k <= j ==> g[k] == '\n'
    ensures r.None? ==> forall k :: 1 <= k <= j ==> g[k] == '\n'
  {
    if j == 0 then None
    else if g[j] != '\n' then Some(j)
    else LastNonNewline(g, j - 1)
  }

  /**
   * Where `.+` starts after `:\s+`, given the greedy whitespace run `g` after
   * the colon and the rest `r`. If the run reaches the end of the line, the
   * regex backs off to the last whitespace character that is not a newline.
   * Returns the gap the regex settles on and the text from the body's start.
   */
  function BodyStart(g: string, r: string): (b: Option<(string, string)>)
    requires g != [] && AllSpace(g)
    requires r == [] || !IsSpace(r[0])
    ensures b.Some? ==> b.value.0 != [] && AllSpace(b.value.0) && g + r == b.value.0 + b.value.1
    ensures b.Some? ==> b.value.1 != [] && b.value.1[0] != '\n'
    ensures b.None? <==> r == [] && forall k :: 1 <= k < |g| ==> g[k] == '\n'
    ensures r != [] ==> b == Some((g, r))
    ensures r == [] && b.Some? ==>
      var j := |b.value.0|;
      && 1 <= j < |g| && g[j] != '\n' && b.value == (g[..j], g[j..])
      && forall k :: j < k < |g| ==> g[k] == '\n'
  {
    if r != [] then
      assert r[0] != '\n';
      Some((g, r))
    else
      match LastNonNewline(g, |g| - 1)
      case None => None
      case Some(j) =>
        assert g + r == g[..j] + g[j..];
        Some((g[..j], g[j..]))
  }

  /** `([^:]+):\s+(.+)` from the speaker's first character. */
  function ParseMessage(s: string): (r: Option<(string, string, string, string)>)
    ensures r.Some? ==>
      var (speaker, gap, body, tail) := r.value;
      && speaker != [] && ':' !in speaker
      && gap != [] && AllSpace(gap)
      && body != [] && '\n' !in body
      && EndsLine(tail)
      && s == speaker + ([':'] + (gap + (body + tail)))
  {
    var (speaker, r1) := TakeWhile(s, NotColon);
    if speaker == [] || r1 == [] then None
    else
      var (g, r2) := TakeWhile(r1[1..], IsSpace);
      if g == [] then None
      else
        match BodyStart(g, r2)
        case None => None
        case Some((gap, from)) =>
          var (body, tail) := TakeWhile(from, NotNewline);
          assert r1 == [':'] + (gap + (body + tail));
          Some((speaker, gap, body, tail))
  }

  /**
   * `message_pattern.match(line)`: the header at the start of `line`, or
   * `None` when the line does not begin with one.
   */
  function Match(line: string): (r: Option<Header>)
    ensures r.Some? ==> r.value.Valid()
    ensures r.Some? ==> exists tail :: line == r.value.Line(tail) && EndsLine(tail)
  {
    match ParseStamp(line)
    case None => None
    case Some((stamp, r1)) =>
      match ParseLead(r1)
      case None => None
      case Some((lead, r2)) =>
        match ParseMessage(r2)
        case None => None
        case Some((speaker, gap, body, tail)) =>
          var h := Header(stamp, lead, speaker, gap, body);
          assert line == h.Line(tail);
          Some(h)
  }

  lemma ParseDateThen(d: DatePart, rest: string)
    requires d.Valid()
    requires rest == [] || !IsDigit(rest[0])
    ensures ParseDate(d.Then(rest)) == Some((d, rest))
  {
    var r2 := [d.sep2] + (d.year + rest);
    var r1 := [d.sep1] + (d.month + r2);
    assert d.Then(rest) == d.day + r1;
    TakeWhileSplit(d.day, r1, IsDigit);
    assert TakeWhile(d.Then(rest), IsDigit) == (d.day, r1);
    assert r1[0] == d.sep1 && r1[1..] == d.month + r2;
    TakeWhileSplit(d.month, r2, IsDigit);
    assert TakeWhile(r1[1..], IsDigit) == (d.month, r2);
    assert r2[0] == d.sep2 && r2[1..] == d.year + rest;
    TakeWhileSplit(d.year, rest, IsDigit);
    assert TakeWhile(r2[1..], IsDigit) == (d.year, rest);
  }

  /** What a line's delimiter puts after the time: whitespace, then no AM/PM letter. */
  ghost predicate CanFollowClock(rest: string) {
    |rest| >= 2 && IsSpace(rest[0]) && !IsMeridiemLetter(rest[1])
  }

  lemma ParseClockThen(c: Clock, rest: string)
    requires c.Valid()
    requires CanFollowClock(rest)
    ensures ParseClock(c.Then(rest)) == Some((c, rest))
  {
    var r4 := c.MeridiemText() + rest;
    var r3 := c.SecondText() + r4;
    var r1 := [':'] + (c.minute + r3);
    TakeWhileSplit(c.hour, r1, IsDigit);
    assert r1[1..] == c.minute + r3;
    assert (c.minute + r3)[..2] == c.minute;
    assert (c.minute + r3)[2..] == r3;
    if c.second.Some? {
      assert r3 == [':'] + c.second.value + r4;
    } else {
      assert r3 == r4 && r4[0] != ':';
    }
    assert ParseSecond(r3) == (c.second, r4);
    if c.meridiem.Some? {
      assert r4 == [c.meridiem.value.space, c.meridiem.value.letter, c.meridiem.value.m] + rest;
      assert r4[3..] == rest;
    } else {
      assert r4 == rest;
    }
    assert ParseMeridiem(r4) == (c.meridiem, rest);
  }

  lemma ParseStampThen(st: Stamp, rest: string)
    requires st.Valid()
    requires CanFollowClock(rest)
    ensures ParseStamp(st.Then(rest)) == Some((st, rest))
  {
    var r2 := st.gap + st.clock.Then(rest);
    var r1 := st.CommaText() + r2;
    ParseDateThen(st.date, r1);
    assert r1[0] == ',' <==> st.comma;
    assert (if st.comma then r1[1..] else r1) == r2;
    TakeWhileSplit(st.gap, st.clock.Then(rest), IsSpace);
    ParseClockThen(st.clock, rest);
  }

  /** How `ParseLead` scans a delimiter `w1 - w2` followed by `y`. */
  lemma LeadScan(lead: string, w1: string, w2: string, y: string)
    requires lead == w1 + (['-'] + w2)
    requires w1 != [] && AllSpace(w1) && w2 != [] && AllSpace(w2)
    ensures SkipSpace(lead + y, 0) == |w1|
    ensures (lead + y)[|w1|] == '-'
    ensures SkipSpace(lead + y, |w1| + 1) == |lead| + SkipSpace(y, 0)
  {
    LeadDash(lead, w1, w2, y);
    LeadSecondGap(lead, w1, w2);
    SkipSpaceAppend(lead, y, |w1| + 1);
  }

  lemma LeadDash(lead: string, w1: string, w2: string, y: string)
    requires lead == w1 + (['-'] + w2)
    requires AllSpace(w1)
    ensures SkipSpace(lead + y, 0) == |w1|
    ensures (lead + y)[|w1|] == '-'
  {
    var s := lead + y;
    assert forall t :: 0 <= t < |w1| ==> s[t] == w1[t];
    assert s[|w1|] == '-';
    SkipSpaceAt(s, 0, |w1|);
  }

  lemma LeadSecondGap(lead: string, w1: string, w2: string)
    requires lead == w1 + (['-'] + w2)
    requires AllSpace(w2)
    ensures forall t :: |w1| + 1 <= t < |lead| ==> IsSpace(lead[t])
  {
    assert forall t :: |w1| + 1 <= t < |lead| ==> lead[t] == w2[t - |w1| - 1];
  }

  lemma ParseLeadThen(lead: string, rest: string)
    requires IsDelimiter(lead)
    requires rest != [] && !IsSpace(rest[0]) && rest[0] != ':'
    ensures ParseLead(lead + rest) == Some((lead, rest))
  {
    var w1, w2 := DelimiterParts(lead);
    LeadScan(lead, w1, w2, rest);
    var s := lead + rest;
    assert s[|lead|] == rest[0];
    assert s[..|lead|] == lead && s[|lead|..] == rest;
  }

  lemma ParseMessageThen(speaker: string, gap: string, body: string, tail: string)
    requires speaker != [] && ':' !in speaker
    requires gap != [] && AllSpace(gap)
    requires body != [] && '\n' !in body && !IsSpace(body[0])
    requires EndsLine(tail)
    ensures ParseMessage(speaker + ([':'] + (gap + (body + tail)))) == Some((speaker, gap, body, tail))
  {
    var r1 := [':'] + (gap + (body + tail));
    TakeWhileSplit(speaker, r1, NotColon);
    assert r1[1..] == gap + (body + tail);
    TakeWhileSplit(gap, body + tail, IsSpace);
    assert BodyStart(gap, body + tail) == Some((gap, body + tail));
    TakeWhileSplit(body, tail, NotNewline);
  }

  /**
   * Printing a header and matching it gives the header back, whenever the
   * speaker and the body do not begin with whitespace (which the greedy `\s+`
   * before them would otherwise absorb).
   */
  lemma MatchLine(h: Header, tail: string)
    requires h.Valid()
    requires !IsSpace(h.speaker[0]) && !IsSpace(h.body[0])
    requires EndsLine(tail)
    ensures Match(h.Line(tail)) == Some(h)
  {
    var m := h.speaker + ([':'] + (h.gap + (h.body + tail)));
    var rest := h.lead + m;
    var k :| 1 <= k < |h.lead| - 1 && h.lead[k] == '-' && forall i :: 0 <= i < |h.lead| && i != k ==> IsSpace(h.lead[i]);
    assert rest[0] == h.lead[0] && rest[1] == h.lead[1];
    ParseStampThen(h.stamp, rest);
    ParseLeadThen(h.lead, m);
    ParseMessageThen(h.speaker, h.gap, h.body, tail);
  }

  /**
   * After a delimiter, the speaker group starts somewhere inside `sp`, the
   * text before the first colon, even when `sp` begins with whitespace.
   */
  lemma ParseLeadInside(lead: string, sp: string, rest: string) returns (k: nat)
    requires IsDelimiter(lead)
    requires sp != [] && ':' !in sp
    ensures ParseLead(lead + (sp + ([':'] + rest))).Some?
    ensures k < |sp| && ParseLead(lead + (sp + ([':'] + rest))).value.1 == sp[k..] + ([':'] + rest)
  {
    var w1, w2 := DelimiterParts(lead);
    k := LeadInside(lead, w1, w2, sp, [':'] + rest);
  }

  lemma LeadInside(lead: string, w1: string, w2: string, sp: string, c: string) returns (k: nat)
    requires lead == w1 + (['-'] + w2)
    requires w1 != [] && AllSpace(w1) && w2 != [] && AllSpace(w2)
    requires sp != [] && ':' !in sp && c != [] && c[0] == ':'
    ensures k < |sp| && ParseLead(lead + (sp + c)) == Some(((lead + (sp + c))[..|lead| + k], sp[k..] + c))
  {
    var y := sp + c;
    var s := lead + y;
    LeadScan(lead, w1, w2, y);
    var g := SkipSpace(y, 0);
    k := SpeakerStart(sp, c, |w2|);
    ParseLeadResult(s, |w1|, |lead| + g);
    assert ParseLead(s) == Some((s[..|lead| + k], s[|lead| + k..]));
    DropInto(lead, sp, c, k);
  }

  lemma DropInto(lead: string, sp: string, c: string, k: nat)
    requires k <= |sp|
    ensures (lead + (sp + c))[|lead| + k..] == sp[k..] + c
  {
    var y := sp + c;
    assert (lead + y)[|lead| + k..] == y[k..];
    assert y[k..] == sp[k..] + c;
  }

  /** Where `ParseLead` ends, given where its two whitespace scans stop. */
  lemma ParseLeadResult(s: string, i: nat, j: nat)
    requires 0 < i < |s| && s[i] == '-' && SkipSpace(s, 0) == i
    requires i + 1 < j <= |s| && SkipSpace(s, i + 1) == j
    ensures var k := if j < |s| && s[j] == ':' && j - (i + 1) >= 2 then j - 1 else j;
      ParseLead(s) == Some((s[..k], s[k..]))
  {
  }

  /**
   * Within `sp + c` after a second whitespace run of length `n` (the text up
   * to the colon `c` starts), the speaker group starts at the returned index.
   */
  lemma SpeakerStart(sp: string, c: string, n: nat) returns (k: nat)
    requires sp != [] && ':' !in sp && c != [] && c[0] == ':' && n >= 1
    ensures k < |sp|
    ensures var y := sp + c; var g := SkipSpace(y, 0);
      k == (if g < |y| && y[g] == ':' && n + g >= 2 then g - 1 else g)
  {
    var y := sp + c;
    var g := SkipSpace(y, 0);
    assert y[|sp|] == ':';
    if g < |sp| {
      assert y[g] == sp[g];
    }
    k := if g < |y| && y[g] == ':' && n + g >= 2 then g - 1 else g;
  }

  /** A delimiter is whitespace, a dash, whitespace. */
  lemma DelimiterParts(lead: string) returns (w1: string, w2: string)
    requires IsDelimiter(lead)
    ensures lead == w1 + (['-'] + w2)
    ensures w1 != [] && AllSpace(w1) && w2 != [] && AllSpace(w2)
  {
    var k :| 1 <= k < |lead| - 1 && lead[k] == '-' && forall i :: 0 <= i < |lead| && i != k ==> IsSpace(lead[i]);
    w1, w2 := lead[..k], lead[k + 1..];
    assert lead == w1 + (['-'] + w2);
  }

  /** `([^:]+):\s+(.+)` succeeds on any speaker text, gap and newline-free body. */
  lemma ParseMessageSome(sp: string, gap: string, body: string, tail: string)
    requires sp != [] && ':' !in sp
    requires gap != [] && AllSpace(gap)
    requires body != [] && '\n' !in body
    ensures ParseMessage(sp + ([':'] + (gap + (body + tail)))).Some?
  {
    var r1 := [':'] + (gap + (body + tail));
    TakeWhileSplit(sp, r1, NotColon);
    assert r1[1..] == gap + (body + tail);
    TakeWhileThrough(gap, body + tail, IsSpace);
    var (x, r) := TakeWhile(body + tail, IsSpace);
    if r == [] {
      assert x == body + tail;
      assert (gap + x)[|gap|] == body[0];
    }
  }

  /**
   * Every line that can be read as a header, by any choice of its pieces,
   * is matched: `Match` returns `None` only on lines without a header.
   */
  lemma MatchComplete(line: string, h: Header, tail: string)
    requires h.Valid()
    requires EndsLine(tail)
    requires line == h.Line(tail)
    ensures Match(line).Some?
  {
    var after := h.gap + (h.body + tail);
    var m := h.speaker + ([':'] + after);
    var rest := h.lead + m;
    LeadCanFollowClock(h.lead, m);
    ParseStampThen(h.stamp, rest);
    var j := ParseLeadInside(h.lead, h.speaker, after);
    ParseMessageSome(h.speaker[j..], h.gap, h.body, tail);
    MatchOfParts(line, h.stamp, rest, ParseLead(rest).value.0, ParseLead(rest).value.1);
  }

  lemma LeadCanFollowClock(lead: string, m: string)
    requires IsDelimiter(lead)
    ensures CanFollowClock(lead + m)
  {
    var w1, w2 := DelimiterParts(lead);
    assert (lead + m)[0] == w1[0];
  }

  lemma MatchOfParts(line: string, st: Stamp, rest: string, lead: string, from: string)
    requires ParseStamp(line) == Some((st, rest))
    requires ParseLead(rest) == Some((lead, from))
    requires ParseMessage(from).Some?
    ensures Match(line).Some?
  {
  }

  /** A line matches exactly when it is some valid header followed by the end of the line or a newline. */
  lemma MatchIff(line: string)
    ensures Match(line).Some? <==>
      exists h: Header, tail: string :: h.Valid() && EndsLine(tail) && line == h.Line(tail)
  {
    if exists h: Header, tail: string :: h.Valid() && EndsLine(tail) && line == h.Line(tail) {
      var h: Header, tail: string :| h.Valid() && EndsLine(tail) && line == h.Line(tail);
      MatchComplete(line, h, tail);
    }
  }
}

=== FILE: metrics.dfy ===
/**
 * `calculate_metrics`: words per message for every speaker in the message
 * counter and for "Total", with `safe_divide` giving 0 for an empty
 * denominator. Python floats are modelled as exact reals.
 */
module Metrics {
  import opened Wrappers
  import opened Tally
  import opened Sums
  import opened Aggregator
  import opened Reference
  import Invariants

  /** `a / b` when `b > 0`, otherwise `0.0`. */
  function SafeDivide(a: nat, b: nat): (r: real)
    ensures r >= 0.0
    ensures b == 0 ==> r == 0.0
    ensures b > 0 ==> r * (b as real) == a as real
  {
    if b > 0 then (a as real) / (b as real) else 0.0
  }

  /** `sum(counters['words'].values())`. */
  ghost function WordsSum(words: map<string, nat>): nat {
    SumSet(words.Keys, k => Get(words, k))
  }

  /** What `metrics['words_per_message']` holds for a set of counters. */
  ghost predicate IsWordsPerMessage<D>(c: Counters<D>, wpm: map<string, real>) {
    && wpm.Keys == c.messages.Keys + {TotalKey}
    && (forall u :: u in c.messages && u != TotalKey ==> wpm[u] == Rate(c, u))
    && wpm[TotalKey] == SafeDivide(WordsSum(c.words), Get(c.messages, TotalKey))
  }

  /** Adds up the word counts of all speakers. */
  method TotalWords(words: map<string, nat>) returns (n: nat)
    ensures n == WordsSum(words)
  {
    var f := k => Get(words, k);
    var rest := words.Keys;
    n := 0;
    while rest != {}
      invariant rest <= words.Keys
      invariant n + SumSet(rest, f) == SumSet(words.Keys, f)
      decreases |rest|
    {
      var k :| k in rest;
      SumSetRemove(rest, f, k);
      n := n + words[k];
      rest := rest - {k};
    }
  }

  /** The rate of one speaker: `safe_divide(words[user], messages[user])`. */
  function Rate<D>(c: Counters<D>, u: string): real {
    SafeDivide(Get(c.words, u), Get(c.messages, u))
  }

  /** The loop over the speakers of the message counter. */
  method SpeakerRates<D>(c: Counters<D>) returns (wpm: map<string, real>)
    ensures wpm.Keys == c.messages.Keys - {TotalKey}
    ensures forall u :: u in wpm ==> wpm[u] == Rate(c, u)
  {
    wpm := map[];
    var users := c.messages.Keys - {TotalKey};
    while users != {}
      invariant users <= c.messages.Keys - {TotalKey}
      invariant wpm.Keys == c.messages.Keys - {TotalKey} - users
      invariant forall u :: u in wpm ==> wpm[u] == Rate(c, u)
      decreases |users|
    {
      var u :| u in users;
      wpm := wpm[u := Rate(c, u)];
      users := users - {u};
    }
  }

  /** The words-per-message table of `calculate_metrics`. */
  method WordsPerMessage<D>(c: Counters<D>) returns (wpm: map<string, real>)
    ensures IsWordsPerMessage(c, wpm)
  {
    var rates := SpeakerRates(c);
    var total := TotalWords(c.words);
    wpm := rates[TotalKey := SafeDivide(total, Get(c.messages, TotalKey))];
  }

  /** Words in all bodies of the events. */
  function WordsAll<D>(evs: seq<Event<D>>): nat {
    if evs == [] then 0 else WordsAll(Init(evs)) + WordCount(Last(evs).body)
  }

  lemma IncSum(words: map<string, nat>, u: string, n: nat)
    ensures WordsSum(Inc(words, u, n)) == WordsSum(words) + n
  {
    var r := Inc(words, u, n);
    var f := k => Get(words, k);
    var g := k => Get(r, k);
    if u in words {
      assert r.Keys == words.Keys;
      SumSetBump(words.Keys, f, g, u, n);
    } else {
      assert r.Keys == words.Keys + {u};
      SumSetInsert(words.Keys, g, u);
      SumSetExt(words.Keys, f, g);
    }
  }

  lemma {:induction false} ReplayWordsSum<D>(evs: seq<Event<D>>)
    ensures WordsSum(Replay(evs).words) == WordsAll(evs)
    decreases |evs|
  {
    if evs == [] {
      SumSetZero({}, k => Get(map[], k));
    } else {
      ReplayWordsSum(Init(evs));
      IncSum(Replay(Init(evs)).words, Last(evs).user, WordCount(Last(evs).body));
    }
  }

  /** The sum of the word counter is the number of words in all accepted bodies. */
  lemma {:induction false} RunWordsSum<D>(parse: string -> Option<D>, lines: seq<string>)
    ensures WordsSum(Run(parse, lines).words) == WordsAll(Events(parse, lines))
  {
    RunIsReplay(parse, lines);
    ReplayWordsSum(Events(parse, lines));
  }

  /** Without a speaker named "Total", the denominator of the "Total" rate is the number of events. */
  lemma {:induction false} ReplayTotals<D>(evs: seq<Event<D>>)
    requires Invariants.NoneBy(evs, TotalKey)
    ensures Get(Replay(evs).messages, TotalKey) == |evs|
  {
    ReplayMessages(evs);
    Invariants.NoneByCount(evs, TotalKey);
  }

  /** The rate of a speaker other than "Total", from the events alone. */
  lemma {:induction false} ReplayRate<D>(evs: seq<Event<D>>, u: string)
    requires u != TotalKey
    ensures Rate(Replay(evs), u) == SafeDivide(WordsBy(evs, u), MessagesBy(evs, u))
  {
    ReplayMessages(evs);
    ReplayWords(evs);
  }

  lemma {:induction false} ReplaySpeakerRates<D>(evs: seq<Event<D>>, wpm: map<string, real>)
    requires IsWordsPerMessage(Replay(evs), wpm)
    ensures forall u :: u in wpm && u != TotalKey ==> wpm[u] == SafeDivide(WordsBy(evs, u), MessagesBy(evs, u))
  {
    forall u | u in wpm && u != TotalKey
      ensures wpm[u] == SafeDivide(WordsBy(evs, u), MessagesBy(evs, u))
    {
      ReplayRate(evs, u);
    }
  }

  lemma {:induction false} ReplayTotalRate<D>(evs: seq<Event<D>>, wpm: map<string, real>)
    requires IsWordsPerMessage(Replay(evs), wpm)
    requires Invariants.NoneBy(evs, TotalKey)
    ensures wpm[TotalKey] == SafeDivide(WordsAll(evs), |evs|)
  {
    ReplayTotals(evs);
    ReplayWordsSum(evs);
  }

  /**
   * After a run, each speaker's rate is their words over their messages, and
   * the "Total" rate is all words over all accepted messages, provided no
   * speaker's key is "Total".
   */
  lemma {:induction false} RunWordsPerMessage<D>(parse: string -> Option<D>, lines: seq<string>, wpm: map<string, real>)
    requires IsWordsPerMessage(Run(parse, lines), wpm)
    requires Invariants.NoEventBy(parse, lines, TotalKey)
    ensures forall u :: u in wpm && u != TotalKey ==>
      wpm[u] == SafeDivide(WordsBy(Events(parse, lines), u), MessagesBy(Events(parse, lines), u))
    ensures wpm[TotalKey] == SafeDivide(WordsAll(Events(parse, lines)), |Events(parse, lines)|)
  {
    RunIsReplay(parse, lines);
    ReplaySpeakerRates(Events(parse, lines), wpm);
    ReplayTotalRate(Events(parse, lines), wpm);
  }
}

=== FILE: reference.dfy ===
/**
 * An independent account of what the counters hold after a run: the list of
 * accepted events, and per-speaker counts computed from that list alone.
 * The run depends only on the accepted events (`RunIsReplay`); the counts are
 * proved for the fold over events and then carried over to every input.
 */
module Reference {
  import opened Wrappers
  import opened Text
  import opened Tally
  import opened Aggregator
  import Speakers

  /** The accepted events of the lines, in file order. */
  function Events<D>(parse: string -> Option<D>, lines: seq<string>): (evs: seq<Event<D>>)
    ensures |evs| <= |lines|
    decreases |lines|
  {
    if lines == [] then []
    else
      var earlier := Events(parse, lines[..|lines| - 1]);
      match Recognise(parse, lines[|lines| - 1])
      case Accepted(ev) => earlier + [ev]
      case _ => earlier
  }

  function Last<D>(evs: seq<Event<D>>): Event<D>
    requires evs != []
  {
    evs[|evs| - 1]
  }

  function Init<D>(evs: seq<Event<D>>): seq<Event<D>>
    requires evs != []
  {
    evs[..|evs| - 1]
  }

  /** Number of events by `u`. */
  function MessagesBy<D>(evs: seq<Event<D>>, u: string): nat {
    if evs == [] then 0 else MessagesBy(Init(evs), u) + (if Last(evs).user == u then 1 else 0)
  }

  /** Words in the bodies of the events by `u`. */
  function WordsBy<D>(evs: seq<Event<D>>, u: string): nat {
    if evs == [] then 0 else WordsBy(Init(evs), u) + (if Last(evs).user == u then WordCount(Last(evs).body) else 0)
  }

  /** Occurrences of `e` in the bodies of the events by `u`. */
  function OccurrencesBy<D>(evs: seq<Event<D>>, u: string, e: char): nat {
    if evs == [] then 0
    else OccurrencesBy(Init(evs), u, e) + (if Last(evs).user == u then Occurrences(Last(evs).body, e) else 0)
  }

  /** Events by `u` whose body contains `e`. */
  function MentionsBy<D>(evs: seq<Event<D>>, u: string, e: char): nat {
    if evs == [] then 0
    else MentionsBy(Init(evs), u, e) + (if Last(evs).user == u then Mentions(Last(evs).body, e) else 0)
  }

  /** Occurrences of `e` in all bodies. */
  function OccurrencesAll<D>(evs: seq<Event<D>>, e: char): nat {
    if evs == [] then 0 else OccurrencesAll(Init(evs), e) + Occurrences(Last(evs).body, e)
  }

  /** Events whose body contains `e`. */
  function MentionsAll<D>(evs: seq<Event<D>>, e: char): nat {
    if evs == [] then 0 else MentionsAll(Init(evs), e) + Mentions(Last(evs).body, e)
  }

  /** The date series the events produce. */
  function DatesOf<D>(evs: seq<Event<D>>): (ds: seq<(string, D)>)
    ensures |ds| == |evs|
  {
    seq(|evs|, i requires 0 <= i < |evs| => (evs[i].user, evs[i].date))
  }

  lemma RunUnfold<D>(parse: string -> Option<D>, lines: seq<string>)
    requires lines != []
    ensures Run(parse, lines) == Step(parse, Run(parse, lines[..|lines| - 1]), lines[|lines| - 1])
    ensures var earlier := Events(parse, lines[..|lines| - 1]);
      Events(parse, lines) ==
        if Recognise(parse, lines[|lines| - 1]).Accepted?
        then earlier + [Recognise(parse, lines[|lines| - 1]).event] else earlier
  {
  }

  /** The counter updates of the events, in order, from empty counters. */
  function Replay<D>(evs: seq<Event<D>>): Counters<D> {
    if evs == [] then Empty() else Apply(Replay(Init(evs)), Last(evs))
  }

  lemma ReplaySnoc<D>(evs: seq<Event<D>>, ev: Event<D>)
    ensures Replay(evs + [ev]) == Apply(Replay(evs), ev)
  {
    assert Init(evs + [ev]) == evs;
  }

  /** Skipped lines leave no trace: the counters are the fold of the accepted events alone. */
  lemma {:induction false} RunIsReplay<D>(parse: string -> Option<D>, lines: seq<string>)
    ensures Run(parse, lines) == Replay(Events(parse, lines))
    decreases |lines|
  {
    if lines != [] {
      var prefix := lines[..|lines| - 1];
      RunIsReplay(parse, prefix);
      RunUnfold(parse, lines);
      var r := Recognise(parse, lines[|lines| - 1]);
      if r.Accepted? {
        ReplaySnoc(Events(parse, prefix), r.event);
      }
    }
  }

  lemma {:induction false} ReplayMessages<D>(evs: seq<Event<D>>)
    ensures forall u :: u != TotalKey ==> Get(Replay(evs).messages, u) == MessagesBy(evs, u)
    ensures Get(Replay(evs).messages, TotalKey) == |evs| + MessagesBy(evs, TotalKey)
    decreases |evs|
  {
    if evs != [] {
      ReplayMessages(Init(evs));
    }
  }

  /**
   * `messages[u]` counts the events by `u`; "Total" counts every event plus,
   * when a speaker's key is itself "Total", that speaker's events once more.
   */
  lemma {:induction false} RunMessages<D>(parse: string -> Option<D>, lines: seq<string>)
    ensures forall u :: u != TotalKey ==> Get(Run(parse, lines).messages, u) == MessagesBy(Events(parse, lines), u)
    ensures Get(Run(parse, lines).messages, TotalKey)
      == |Events(parse, lines)| + MessagesBy(Events(parse, lines), TotalKey)
  {
    RunIsReplay(parse, lines);
    ReplayMessages(Events(parse, lines));
  }

  lemma {:induction false} ReplayWords<D>(evs: seq<Event<D>>)
    ensures forall u :: Get(Replay(evs).words, u) == WordsBy(evs, u)
    decreases |evs|
  {
    if evs != [] {
      ReplayWords(Init(evs));
    }
  }

  /** `words[u]` is the word count of the bodies of the events by `u`. */
  lemma {:induction false} RunWords<D>(parse: string -> Option<D>, lines: seq<string>)
    ensures forall u :: Get(Run(parse, lines).words, u) == WordsBy(Events(parse, lines), u)
  {
    RunIsReplay(parse, lines);
    ReplayWords(Events(parse, lines));
  }

  lemma DatesOfLast<D>(evs: seq<Event<D>>)
    requires evs != []
    ensures DatesOf(evs) == DatesOf(Init(evs)) + [(Last(evs).user, Last(evs).date)]
  {
    var a := DatesOf(evs);
    var b := DatesOf(Init(evs)) + [(Last(evs).user, Last(evs).date)];
    assert forall i :: 0 <= i < |a| ==> a[i] == b[i];
  }

  lemma {:induction false} ReplayDates<D>(evs: seq<Event<D>>)
    ensures Replay(evs).dates == DatesOf(evs)
    decreases |evs|
  {
    if evs != [] {
      var p, ev := Init(evs), Last(evs);
      ReplayDates(p);
      assert Replay(evs).dates == Replay(p).dates + [(ev.user, ev.date)];
      DatesOfLast(evs);
    }
  }

  /** `dates` holds one (speaker, date) pair per event, in file order. */
  lemma {:induction false} RunDates<D>(parse: string -> Option<D>, lines: seq<string>)
    ensures Run(parse, lines).dates == DatesOf(Events(parse, lines))
  {
    RunIsReplay(parse, lines);
    ReplayDates(Events(parse, lines));
  }

  lemma {:induction false} ReplayEmojis<D>(evs: seq<Event<D>>, u: string, e: char)
    requires u != BothKey
    ensures EmojiTotal(Replay(evs).emojis, u, e) == OccurrencesBy(evs, u, e)
    ensures EmojiMessages(Replay(evs).emojis, u, e) == MentionsBy(evs, u, e)
    decreases |evs|
  {
    if evs != [] {
      ReplayEmojis(Init(evs), u, e);
    }
  }

  /** A speaker's emoji table counts that speaker's events only. */
  lemma {:induction false} RunEmojis<D>(parse: string -> Option<D>, lines: seq<string>)
    ensures forall u, e :: u != BothKey ==>
      && EmojiTotal(Run(parse, lines).emojis, u, e) == OccurrencesBy(Events(parse, lines), u, e)
      && EmojiMessages(Run(parse, lines).emojis, u, e) == MentionsBy(Events(parse, lines), u, e)
  {
    RunIsReplay(parse, lines);
    forall u, e | u != BothKey {
      ReplayEmojis(Events(parse, lines), u, e);
    }
  }

  lemma {:induction false} ReplayBothTotal<D>(evs: seq<Event<D>>, e: char)
    ensures EmojiTotal(Replay(evs).emojis, BothKey, e) == OccurrencesAll(evs, e) + OccurrencesBy(evs, BothKey, e)
    decreases |evs|
  {
    if evs != [] {
      ReplayBothTotal(Init(evs), e);
    }
  }

  lemma {:induction false} ReplayBothMessages<D>(evs: seq<Event<D>>, e: char)
    ensures EmojiMessages(Replay(evs).emojis, BothKey, e) == MentionsAll(evs, e) + MentionsBy(evs, BothKey, e)
    decreases |evs|
  {
    if evs != [] {
      ReplayBothMessages(Init(evs), e);
    }
  }

  /**
   * The "Both" table counts every event, and a speaker whose key is itself
   * "Both" once more.
   */
  lemma {:induction false} RunBoth<D>(parse: string -> Option<D>, lines: seq<string>)
    ensures forall e ::
      && EmojiTotal(Run(parse, lines).emojis, BothKey, e)
         == OccurrencesAll(Events(parse, lines), e) + OccurrencesBy(Events(parse, lines), BothKey, e)
      && EmojiMessages(Run(parse, lines).emojis, BothKey, e)
         == MentionsAll(Events(parse, lines), e) + MentionsBy(Events(parse, lines), BothKey, e)
  {
    RunIsReplay(parse, lines);
    var evs := Events(parse, lines);
    forall e
      ensures EmojiTotal(Replay(evs).emojis, BothKey, e) == OccurrencesAll(evs, e) + OccurrencesBy(evs, BothKey, e)
      ensures EmojiMessages(Replay(evs).emojis, BothKey, e) == MentionsAll(evs, e) + MentionsBy(evs, BothKey, e)
    {
      ReplayBothTotal(evs, e);
      ReplayBothMessages(evs, e);
    }
  }
}

=== FILE: speakers.dfy ===
/**
 * Speaker normalisation and the system-message filter of `process_chat_data`:
 * the label is stripped and title-cased, and events whose label reads as
 * "system", "whatsapp" or contains "changed" (in any case) are dropped.
 */
module Speakers {
  import opened Wrappers
  import opened Text

  /** `user.strip().title()`. */
  function Normalise(raw: string): string {
    Title(Strip(raw))
  }

  /** The lower-cased labels the filter rejects. */
  predicate IsSystemLabel(lowered: string) {
    lowered == "system" || lowered == "whatsapp" || Contains(lowered, "changed")
  }

  /** The filter as applied to a normalised label: `user.lower()` is what gets compared. */
  predicate Excluded(user: string) {
    IsSystemLabel(Lower(user))
  }

  /** A label in normal form: no surrounding whitespace and already title-cased. */
  ghost predicate IsKey(user: string) {
    (user == [] || (!IsSpace(user[0]) && !IsSpace(user[|user| - 1]))) && Title(user) == user
  }

  /**
   * The speaker key of a raw label, or `None` for a system message. The
   * decision depends only on the stripped label, compared case-insensitively.
   */
  function Classify(raw: string): (r: Option<string>)
    ensures r.None? <==> IsSystemLabel(Lower(Strip(raw)))
    ensures r.Some? ==> r.value == Normalise(raw) && IsKey(r.value) && !Excluded(r.value)
  {
    var user := Normalise(raw);
    LowerTitleFrom(Strip(raw), false);
    NormaliseIsKey(raw);
    if Excluded(user) then None else Some(user)
  }

  /** Normalising always yields a key. */
  lemma NormaliseIsKey(raw: string)
    ensures IsKey(Normalise(raw))
  {
    var t := Strip(raw);
    TitleFromIdempotent(t, false);
  }

  /** Keys are exactly the fixed points of normalisation, so normalising twice is normalising once. */
  lemma NormaliseFixesKeys(user: string)
    ensures IsKey(user) <==> Normalise(user) == user
  {
    if IsKey(user) {
      StripOfTrimmed(user);
    } else {
      NormaliseIsKey(user);
    }
  }

  lemma NormaliseIdempotent(raw: string)
    ensures Normalise(Normalise(raw)) == Normalise(raw)
  {
    NormaliseIsKey(raw);
    NormaliseFixesKeys(Normalise(raw));
  }
}

=== FILE: sums.dfy ===
/**
 * Finite sums over a set of keys, used to state the aggregate counters
 * ("Total", "Both") as sums of the per-speaker ones.
 */
module Sums {

  /** Some member of a non-empty set: the key a sum takes out first. */
  ghost function Pick(s: set<string>): (k: string)
    requires s != {}
    ensures k in s
  {
    var k :| k in s; k
  }

  /** The sum of `f(k)` over the keys `k` in `s`. */
  ghost function SumSet(s: set<string>, f: string -> nat): nat
    decreases |s|
  {
    if s == {} then 0
    else
      var k := Pick(s);
      f(k) + SumSet(s - {k}, f)
  }

  /** The sum does not depend on which key is taken out first. */
  lemma {:induction false} SumSetRemove(s: set<string>, f: string -> nat, k: string)
    requires k in s
    ensures SumSet(s, f) == f(k) + SumSet(s - {k}, f)
    decreases |s|
  {
    var j := Pick(s);
    if j != k {
      SumSetRemove(s - {j}, f, k);
      SumSetRemove(s - {k}, f, j);
      assert s - {j} - {k} == s - {k} - {j};
    }
  }

  lemma {:induction false} SumSetExt(s: set<string>, f: string -> nat, g: string -> nat)
    requires forall k :: k in s ==> f(k) == g(k)
    ensures SumSet(s, f) == SumSet(s, g)
    decreases |s|
  {
    if s != {} {
      var k :| k in s;
      SumSetRemove(s, f, k);
      SumSetRemove(s, g, k);
      SumSetExt(s - {k}, f, g);
    }
  }

  /** Raising one summand by `n` raises the sum by `n`. */
  lemma SumSetBump(s: set<string>, f: string -> nat, g: string -> nat, k: string, n: nat)
    requires k in s
    requires g(k) == f(k) + n
    requires forall j :: j in s && j != k ==> g(j) == f(j)
    ensures SumSet(s, g) == SumSet(s, f) + n
  {
    SumSetRemove(s, f, k);
    SumSetRemove(s, g, k);
    SumSetExt(s - {k}, f, g);
  }

  lemma SumSetInsert(s: set<string>, f: string -> nat, k: string)
    requires k !in s
    ensures SumSet(s + {k}, f) == SumSet(s, f) + f(k)
  {
    SumSetRemove(s + {k}, f, k);
    assert s + {k} - {k} == s;
  }

  /** Summands that are all zero sum to zero. */
  lemma {:induction false} SumSetZero(s: set<string>, f: string -> nat)
    requires forall k :: k in s ==> f(k) == 0
    ensures SumSet(s, f) == 0
    decreases |s|
  {
    if s != {} {
      var k :| k in s;
      SumSetRemove(s, f, k);
      SumSetZero(s - {k}, f);
    }
  }
}

=== FILE: tally.dfy ===
/**
 * Counters with Python's `defaultdict(int)` / `collections.Counter` reading:
 * a missing key counts as zero, and an update creates the key.
 */
module Tally {
  import opened Text

  function Get<K(!new)>(m: map<K, nat>, k: K): nat {
    if k in m then m[k] else 0
  }

  /** `m[k] += n` on a defaultdict. */
  function Inc<K(!new)>(m: map<K, nat>, k: K, n: nat): (r: map<K, nat>)
    ensures r.Keys == m.Keys + {k}
    ensures Get(r, k) == Get(m, k) + n
    ensures forall j :: j != k ==> Get(r, j) == Get(m, j)
  {
    m[k := Get(m, k) + n]
  }

  /** `Counter.update(xs)` for a list: every element is counted once per occurrence. */
  function AddAll(m: map<char, nat>, xs: string): (r: map<char, nat>)
    ensures forall e :: Get(r, e) == Get(m, e) + Count(xs, e)
    ensures forall e :: e in r <==> e in m || e in xs
    decreases |xs|
  {
    if xs == [] then m
    else
      assert forall e :: e in xs <==> e == xs[0] || e in xs[1..];
      AddAll(Inc(m, xs[0], 1), xs[1..])
  }

  /** `set(xs)` as a list: each element of `xs` exactly once, in some order. */
  function Distinct(xs: string): (d: string)
    ensures forall e :: Count(d, e) == (if e in xs then 1 else 0)
    decreases |xs|
  {
    if xs == [] then []
    else
      var rest := Distinct(xs[1..]);
      assert forall e :: e in xs <==> e == xs[0] || e in xs[1..];
      if xs[0] in xs[1..] then rest
      else
        assert ([xs[0]] + rest)[1..] == rest;
        [xs[0]] + rest
  }

  /**
   * `Counter.update(set(xs))`: iterating the set counts every distinct
   * element of `xs` once, however often it occurs in `xs`.
   */
  function AddEach(m: map<char, nat>, xs: string): (r: map<char, nat>)
    ensures forall e :: Get(r, e) == Get(m, e) + (if e in xs then 1 else 0)
    ensures forall e :: e in r <==> e in m || e in xs
  {
    AddAll(m, Distinct(xs))
  }
}

=== FILE: text.dfy ===
/**
 * Character classes and string helpers shared by the line matcher, the speaker
 * normaliser, the word splitter and the emoji extractor.
 *
 * Whitespace is the set Python's `str.isspace` (and hence `\s`, `str.split` and
 * `str.strip`) uses; digits and letter case are ASCII only.
 */
module Text {

  /** Python's whitespace code points. */
  predicate IsSpace(c: char) {
    var n := c as int;
    || 0x09 <= n <= 0x0D
    || 0x1C <= n <= 0x20
    || n == 0x85 || n == 0xA0 || n == 0x1680
    || 0x2000 <= n <= 0x200A
    || n == 0x2028 || n == 0x2029 || n == 0x202F || n == 0x205F || n == 0x3000
  }

  predicate IsDigit(c: char) {
    '0' <= c <= '9'
  }

  predicate IsUpper(c: char) {
    'A' <= c <= 'Z'
  }

  predicate IsLower(c: char) {
    'a' <= c <= 'z'
  }

  /** A cased character, in the sense of `str.title`'s word boundaries. */
  predicate IsLetter(c: char) {
    IsUpper(c) || IsLower(c)
  }

  function ToLower(c: char): (r: char)
    ensures IsLetter(r) <==> IsLetter(c)
    ensures IsSpace(r) <==> IsSpace(c)
    ensures !IsUpper(r)
    ensures !IsLetter(c) ==> r == c
  {
    if IsUpper(c) then (c as int + 32) as char else c
  }

  function ToUpper(c: char): (r: char)
    ensures IsLetter(r) <==> IsLetter(c)
    ensures IsSpace(r) <==> IsSpace(c)
    ensures !IsLower(r)
    ensures !IsLetter(c) ==> r == c
  {
    if IsLower(c) then (c as int - 32) as char else c
  }

  ghost predicate AllSpace(s: string) {
    forall i :: 0 <= i < |s| ==> IsSpace(s[i])
  }

  /** `str.lower` restricted to ASCII letters. */
  function Lower(s: string): (r: string)
    ensures |r| == |s|
    ensures forall i :: 0 <= i < |s| ==> r[i] == ToLower(s[i])
  {
    if s == [] then [] else [ToLower(s[0])] + Lower(s[1..])
  }

  /**
   * `str.title` restricted to ASCII letters: a letter is upper-cased when the
   * character before it (in the input) is not a letter, and lower-cased otherwise.
   */
  function TitleFrom(s: string, afterLetter: bool): (r: string)
    ensures |r| == |s|
    ensures forall i :: 0 <= i < |s| ==> (IsLetter(r[i]) <==> IsLetter(s[i]))
    ensures forall i :: 0 <= i < |s| ==> (IsSpace(r[i]) <==> IsSpace(s[i]))
  {
    if s == [] then []
    else
      var c := if afterLetter then ToLower(s[0]) else ToUpper(s[0]);
      [c] + TitleFrom(s[1..], IsLetter(s[0]))
  }

  function Title(s: string): string {
    TitleFrom(s, false)
  }

  /** Drops leading whitespace: the result is the suffix starting at the first non-space. */
  function StripLeft(s: string): (r: string)
    ensures |r| <= |s| && r == s[|s| - |r|..]
    ensures AllSpace(s[..|s| - |r|])
    ensures r == [] || !IsSpace(r[0])
  {
    if s != [] && IsSpace(s[0]) then
      var r := StripLeft(s[1..]);
      var n := |s| - |r|;
      assert s[n..] == s[1..][n - 1..];
      assert forall t :: 1 <= t < n ==> s[..n][t] == s[1..][..n - 1][t - 1];
      r
    else s
  }

  /** Drops trailing whitespace: the result is the prefix ending at the last non-space. */
  function StripRight(s: string): (r: string)
    ensures |r| <= |s| && r == s[..|r|]
    ensures AllSpace(s[|r|..])
    ensures r == [] || !IsSpace(r[|r| - 1])
  {
    if s != [] && IsSpace(s[|s| - 1]) then
      var r := StripRight(s[..|s| - 1]);
      assert s[|r|..] == s[..|s| - 1][|r|..] + [s[|s| - 1]];
      r
    else s
  }

  /** `str.strip()` with no argument. */
  function Strip(s: string): string {
    StripRight(StripLeft(s))
  }

  /** The first index at or after `from` whose character is not whitespace, or `|s|`. */
  function SkipSpace(s: string, from: nat): (j: nat)
    requires from <= |s|
    ensures from <= j <= |s|
    ensures forall t :: from <= t < j ==> IsSpace(s[t])
    ensures j == |s| || !IsSpace(s[j])
    decreases |s| - from
  {
    if from == |s| || !IsSpace(s[from]) then from else SkipSpace(s, from + 1)
  }

  /** `SkipSpace` stops at the first non-whitespace character. */
  lemma SkipSpaceAt(s: string, from: nat, to: nat)
    requires from <= to <= |s|
    requires forall t :: from <= t < to ==> IsSpace(s[t])
    requires to == |s| || !IsSpace(s[to])
    ensures SkipSpace(s, from) == to
  {
  }

  /** Skipping whitespace that runs to the end of `a` continues into `b`. */
  lemma SkipSpaceAppend(a: string, b: string, from: nat)
    requires from <= |a|
    requires forall t :: from <= t < |a| ==> IsSpace(a[t])
    ensures SkipSpace(a + b, from) == |a| + SkipSpace(b, 0)
  {
    var s := a + b;
    var g := SkipSpace(b, 0);
    assert forall t :: from <= t < |a| ==> s[t] == a[t];
    assert forall t :: |a| <= t < |s| ==> s[t] == b[t - |a|];
    SkipSpaceAt(s, from, |a| + g);
  }

  /** Splits off the longest prefix whose characters all satisfy `p`. */
  function TakeWhile(s: string, p: char -> bool): (r: (string, string))
    ensures r.0 + r.1 == s
    ensures forall i :: 0 <= i < |r.0| ==> p(r.0[i])
    ensures r.1 == [] || !p(r.1[0])
  {
    if s != [] && p(s[0]) then
      var (run, rest) := TakeWhile(s[1..], p);
      assert [s[0]] + run + rest == s;
      ([s[0]] + run, rest)
    else ([], s)
  }

  /** The characters of `s` that satisfy `p`, in order. */
  function Filter(s: string, p: char -> bool): (r: string)
    ensures |r| <= |s|
    ensures forall i :: 0 <= i < |r| ==> p(r[i])
  {
    if s == [] then [] else (if p(s[0]) then [s[0]] else []) + Filter(s[1..], p)
  }

  function Flatten(xs: seq<string>): string {
    if xs == [] then [] else xs[0] + Flatten(xs[1..])
  }

  /**
   * The maximal runs of characters satisfying `p`, left to right: what
   * `re.findall("[...]+", s)` returns for a character class `p`, and what
   * `str.split()` returns for `p` = "not whitespace".
   */
  function Runs(s: string, p: char -> bool): (r: seq<string>)
    ensures forall k :: 0 <= k < |r| ==> r[k] != []
    ensures forall k, i :: 0 <= k < |r| && 0 <= i < |r[k]| ==> p(r[k][i])
    decreases |s|
  {
    if s == [] then []
    else if !p(s[0]) then Runs(s[1..], p)
    else
      var (run, rest) := TakeWhile(s, p);
      [run] + Runs(rest, p)
  }

  function NotSpace(c: char): bool {
    !IsSpace(c)
  }

  /** `str.split()` with no argument. */
  function Words(s: string): seq<string> {
    Runs(s, NotSpace)
  }

  /** Number of occurrences of `x` in `s`. */
  function Count(s: string, x: char): (n: nat)
    ensures n <= |s|
    ensures n > 0 <==> x in s
  {
    if s == [] then 0 else (if s[0] == x then 1 else 0) + Count(s[1..], x)
  }

  /** `sub` occurs in `s` starting at index `i`. */
  ghost predicate OccursAt(s: string, sub: string, i: int) {
    0 <= i <= |s| - |sub| && s[i..i + |sub|] == sub
  }

  /** Python's `sub in s` for strings. */
  function Contains(s: string, sub: string): (b: bool)
    ensures b <==> exists i :: OccursAt(s, sub, i)
    decreases |s|
  {
    if |sub| > |s| then false
    else if s[..|sub|] == sub then
      assert OccursAt(s, sub, 0);
      true
    else
      var b := Contains(s[1..], sub);
      assert forall i :: OccursAt(s[1..], sub, i) <==> OccursAt(s, sub, i + 1);
      assert !OccursAt(s, sub, 0);
      assert (exists i :: OccursAt(s, sub, i)) ==> exists i :: OccursAt(s[1..], sub, i) by {
        if i :| OccursAt(s, sub, i) {
          assert OccursAt(s[1..], sub, i - 1);
        }
      }
      b
  }

  /**
   * Number of positions where a run of `p`-characters begins; `open` says
   * whether the character before `s` (if any) failed `p`.
   */
  function RunStarts(s: string, p: char -> bool, open: bool): nat {
    if s == [] then 0
    else (if p(s[0]) && open then 1 else 0) + RunStarts(s[1..], p, !p(s[0]))
  }

  lemma {:induction false} FilterAppend(a: string, b: string, p: char -> bool)
    ensures Filter(a + b, p) == Filter(a, p) + Filter(b, p)
    decreases |a|
  {
    if a == [] {
      assert a + b == b;
    } else {
      assert (a + b)[1..] == a[1..] + b;
      FilterAppend(a[1..], b, p);
    }
  }

  lemma {:induction false} FilterKeepsAll(s: string, p: char -> bool)
    requires forall i :: 0 <= i < |s| ==> p(s[i])
    ensures Filter(s, p) == s
    decreases |s|
  {
    if s != [] {
      FilterKeepsAll(s[1..], p);
    }
  }

  /** The concatenated runs are exactly the characters that satisfy `p`. */
  lemma {:induction false} FlattenRuns(s: string, p: char -> bool)
    ensures Flatten(Runs(s, p)) == Filter(s, p)
    decreases |s|
  {
    if s == [] {
    } else if !p(s[0]) {
      FlattenRuns(s[1..], p);
    } else {
      var (run, rest) := TakeWhile(s, p);
      FlattenRuns(rest, p);
      assert Runs(s, p) == [run] + Runs(rest, p);
      assert ([run] + Runs(rest, p))[1..] == Runs(rest, p);
      FilterAppend(run, rest, p);
      FilterKeepsAll(run, p);
    }
  }

  lemma {:induction false} RunStartsInside(u: string, rest: string, p: char -> bool)
    requires forall i :: 0 <= i < |u| ==> p(u[i])
    ensures RunStarts(u + rest, p, false) == RunStarts(rest, p, false)
    decreases |u|
  {
    if u == [] {
      assert u + rest == rest;
    } else {
      assert (u + rest)[1..] == u[1..] + rest;
      RunStartsInside(u[1..], rest, p);
    }
  }

  /** There is one run per position where a run begins. */
  lemma {:induction false} RunsCount(s: string, p: char -> bool)
    ensures |Runs(s, p)| == RunStarts(s, p, true)
    decreases |s|
  {
    if s == [] {
    } else if !p(s[0]) {
      RunsCount(s[1..], p);
    } else {
      var (run, rest) := TakeWhile(s, p);
      RunsCount(rest, p);
      assert run[1..] + rest == s[1..];
      RunStartsInside(run[1..], rest, p);
      assert RunStarts(rest, p, false) == RunStarts(rest, p, true);
    }
  }

  lemma {:induction false} ToLowerIdempotent(c: char)
    ensures ToLower(ToLower(c)) == ToLower(c)
    ensures ToLower(ToUpper(c)) == ToLower(c)
    ensures ToUpper(ToUpper(c)) == ToUpper(c)
  {
  }

  /** Title-casing twice is title-casing once. */
  lemma {:induction false} TitleFromIdempotent(s: string, afterLetter: bool)
    ensures TitleFrom(TitleFrom(s, afterLetter), afterLetter) == TitleFrom(s, afterLetter)
    decreases |s|
  {
    if s != [] {
      var t := TitleFrom(s, afterLetter);
      ToLowerIdempotent(s[0]);
      TitleFromIdempotent(s[1..], IsLetter(s[0]));
      assert t[1..] == TitleFrom(s[1..], IsLetter(s[0]));
    }
  }

  /** Lower-casing forgets any earlier title-casing. */
  lemma {:induction false} LowerTitleFrom(s: string, afterLetter: bool)
    ensures Lower(TitleFrom(s, afterLetter)) == Lower(s)
    decreases |s|
  {
    if s != [] {
      ToLowerIdempotent(s[0]);
      LowerTitleFrom(s[1..], IsLetter(s[0]));
      assert TitleFrom(s, afterLetter)[1..] == TitleFrom(s[1..], IsLetter(s[0]));
    }
  }

  lemma {:induction false} StripLeftOfTrimmed(t: string)
    requires t == [] || !IsSpace(t[0])
    ensures StripLeft(t) == t
  {
  }

  lemma {:induction false} StripRightOfTrimmed(t: string)
    requires t == [] || !IsSpace(t[|t| - 1])
    ensures StripRight(t) == t
  {
  }

  /** A string with no whitespace at either end is its own strip. */
  lemma StripOfTrimmed(t: string)
    requires t == [] || (!IsSpace(t[0]) && !IsSpace(t[|t| - 1]))
    ensures Strip(t) == t
  {
    StripLeftOfTrimmed(t);
    StripRightOfTrimmed(t);
  }

  /** `TakeWhile` stops exactly where `p` first fails. */
  lemma {:induction false} TakeWhileSplit(a: string, b: string, p: char -> bool)
    requires forall i :: 0 <= i < |a| ==> p(a[i])
    requires b == [] || !p(b[0])
    ensures TakeWhile(a + b, p) == (a, b)
    decreases |a|
  {
    if a == [] {
      assert a + b == b;
    } else {
      assert (a + b)[1..] == a[1..] + b;
      TakeWhileSplit(a[1..], b, p);
      assert [a[0]] + a[1..] == a;
    }
  }

  /** A prefix whose characters all satisfy `p` is swallowed by `TakeWhile`. */
  lemma {:induction false} TakeWhileThrough(a: string, b: string, p: char -> bool)
    requires forall i :: 0 <= i < |a| ==> p(a[i])
    ensures TakeWhile(a + b, p) == (a + TakeWhile(b, p).0, TakeWhile(b, p).1)
    decreases |a|
  {
    if a == [] {
      assert a + b == b;
      assert a + TakeWhile(b, p).0 == TakeWhile(b, p).0;
    } else {
      assert (a + b)[1..] == a[1..] + b;
      TakeWhileThrough(a[1..], b, p);
      assert [a[0]] + (a[1..] + TakeWhile(b, p).0) == a + TakeWhile(b, p).0;
    }
  }
}

=== FILE: wrappers.dfy ===
/** Optional values: the "no match" / "no event" / "parse failed" outcomes of the pipeline. */
module Wrappers {

  datatype Option<+T> = None | Some(value: T)
}
